=== FILE: README.md ===
# Closing board: a Dafny model

The application is a browser board for an accounting office. It tracks, for
every client company ("empresa") and every competency (a year-month period,
stored as a `"YYYY-MM"` key), one closing record ("fechamento"). A record
moves through three columns: `pendente`, `em-andamento` and `concluido`.

This project models the closing-record lifecycle of `app.js` as pure Dafny
functions over an explicit session state, together with the properties the
code relies on:

- registering a company (`adicionarEmpresa`), which materialises one pending
  record per month from its start competency through the current month
  (`criarFechamentosIniciais`);
- editing a company's start, which discards and rebuilds all of its records;
- toggling a company's `active` flag;
- removing a company, with its records removed in cascade;
- get-or-create of a record (`obterFechamento`);
- the status machine with its set-once timestamps (`atualizarStatus`);
- the board's three column passes, which create missing records as a side
  effect (`renderizarKanban`);
- the spreadsheet export rows, which never create a record;
- the elapsed-day metric (`calcularDiasDecorridos`);
- competency keys, their parsing, comparison and labels, the 12-month
  gallery, status names, and code normalisation (`trim().toUpperCase()`).

Modules:

| file | module | contents |
|---|---|---|
| `common.dfy` | `Common` | `Option`, `Result`, identifiers, instants |
| `text.dfy` | `Text` | JavaScript string operations the board uses: `String(n)`, `Number`, `parseInt`, `split`, `padStart`, `trim`, `toUpperCase` |
| `competency.dfy` | `Competency` | year-month values, `new Date(y, m - 1)` ordering, month ranges, gallery, keys, labels |
| `closing.dfy` | `Closing` | records, status machine, materialisation, get-or-create, reset, elapsed days |
| `registry.dfy` | `Registry` | companies, session state and its invariant, the company operations |
| `views.dfy` | `Views` | board columns and export rows |

Modelling choices:

- **State.** The global arrays `empresas` and `fechamentos` become a value
  `State(companies, records)`. Each operation takes one and returns the next.
- **Injected effects.** Everything the code reads from the outside world is a
  parameter:
  - `now: Time` is the clock, in milliseconds;
  - `today: YearMonth` is the current month;
  - `newId: Id` is a fresh identifier, and `ids: nat -> Id` is a source of them:
    the record made for the `k`-th month of a walk gets `ids(k)`, and the
    record a board pass makes for the `k`-th company gets `ids(k)`;
  - `confirmed: bool` is the user's answer to the removal dialog.
- **Competencies** are stored as `YearMonth` values, not as strings. This is
  faithful because every key the application writes comes from `FormatKey`,
  and `Competency.FormatKeyRoundTrip` proves such keys parse back to the same
  value. `Competency.FormatKeyInjective` proves that comparing keys with
  `===` is comparing competencies.
- **Date comparison.** `new Date(y, m - 1)` compares competencies in the
  order of `Index(ym) = 12·year + month − 1`.
- **Elapsed days.** `Math.floor(diff / 86400000)` is written with Dafny's
  `/`. For a positive divisor, Dafny's `/` rounds down just as `Math.floor`
  does.

Where a reader might expect otherwise, the model follows the code:

- `atualizarStatus` does nothing when the record is missing; it does not
  create one.
- Editing or toggling an unknown id does nothing; no error is reported.
- The export creates no record and has no status filter.
- Nothing is rolled back on failure.

Behaviour of the code that the proofs make explicit:

- **Reopening a closing.** Dragging a record completed straight from
  "Pendente" back to "Em Andamento" keeps its completion time and sets a
  later start. The export then shows a negative day count
  (`Views.ReopenedShowsNegativeDays`). A record that went through "Em
  Andamento" before completion keeps its first start instead, and its day
  count stays non-negative (`Views.ReopenedAfterStartKeepsDays`).
- **Editing a start.** Changing a company's start discards every record of
  the company, completed ones included (`Registry.EditDiscardsHistory`).

## Model

Five predicates and small functions model source expressions but carry no
contract of their own. Each is pinned down by the members named here instead
of by a row:

- `Competency.NotAfter` is the `dataAtualComp >= dataInicial` test
  (app.js:403-406). It is characterised by `Competency.NotAfterIsLexicographic`.
- `Views.Visible` is the board filter: `e.ativo`, then that test
  (app.js:394-406). It is the filter of `Views.VisibleCompanies` and
  `Views.BoardIds`, and `Views.VisibleCompaniesSingle` states it.
- `Registry.CodeTaken` is the duplicate test
  `empresas.find(e => e.codigo === codigo)` (app.js:245). `Registry.AddCompany`
  refuses a non-blank code as a duplicate exactly when it holds for the
  normalised code.
- `Views.Exported` is the export's `e.ativo` filter and its record `find`
  (app.js:567-571). `Views.ExportEntriesSingle` states it, and
  `Views.ExportEntriesCount` counts the positions where it holds.
- `Closing.StatusKey` gives the column keys (app.js:389).
  `Closing.ParseStatus` and `Closing.StatusKeyRoundTrip` characterise them.

| member | source | states |
|---|---|---|
| Text.NatToString | app.js:282 | `String(n)` of a year or month is a non-empty run of decimal digits, a single digit exactly when `n < 10` |
| Text.NatToStringRoundTrip | app.js:282 | the decimal text `String(n)` writes for a key reads back, digit by digit, as `n` |
| Text.JsNumber | app.js:271 | `Number` of a piece of a key is defined exactly when the piece is all digits |
| Text.ParseIntPrefix | app.js:643 | `parseInt` yields a number exactly when the text starts with a digit, and on an all-digit text it is that text's value |
| Text.Split | app.js:271 | `split('-')` always gives at least one piece, and a single piece exactly when there is no separator |
| Text.SplitTwoPieces | app.js:400 | a key with one dash splits into the year text and the month text |
| Text.PadStart | app.js:282 | `padStart(2, '0')` reaches the width, keeps the original text as a suffix and fills only with `'0'` |
| Text.Trim | app.js:237 | `trim` gives a text with no blank at either end, no longer than the input, empty exactly for a blank-only input, and leaves a trimmed text unchanged |
| Text.TrimRemovesOnlyBlanks | app.js:237 | what `trim` removes are blanks at the two ends only |
| Text.UpperChar | app.js:237 | an ASCII small letter becomes its capital, any other ASCII character is kept, no small ASCII letter comes out, and blanks map to blanks only |
| Text.Upper | app.js:237 | `toUpperCase` keeps the length, turns each ASCII small letter into its capital, keeps every other ASCII character, and maps blanks to blanks only |
| Text.NormalizeCode | app.js:237 | the stored code is the trimmed text with each ASCII small letter capitalised and every other ASCII character kept |
| Text.NormalizeCodeIdempotent | app.js:237 | normalising a normalised code changes nothing, so stored codes are in normal form |
| Text.NormalizeCodeIgnoresAsciiCase | app.js:237 | texts that differ only in ASCII case normalise to the same code |
| Text.NormalizeLowerCaseAcme | app.js:237 | `" acme"` normalises to `"ACME"` |
| Competency.FromIndex | app.js:118-120 | `new Date(y, m - i, 1)` normalises to the calendar month with the given month count |
| Competency.FromIndexOfIndex | app.js:118-120 | a calendar month is recovered from its month count |
| Competency.NotAfterIsLexicographic | app.js:403-406 | the `Date` comparison of two competencies is the (year, month) lexicographic order |
| Competency.MonthRange | app.js:277-282 | the months from the start through the current month, one per month count, none when the start is later |
| Competency.MonthRangeMembership | app.js:277-282 | a calendar month is in the range exactly when it lies between the two ends |
| Competency.MonthRangeIncreasing | app.js:277-282 | the range is strictly increasing, so it lists no month twice |
| Competency.RecentCompetencies | app.js:117-121 | the n months ending with the current one, newest first, each one month before the previous |
| Competency.Gallery | app.js:109-128 | twelve competencies, the first being the current month, each one month before the previous, all writable as keys from year 1 on |
| Competency.FormatKey | app.js:42 | a key ends in a dash and two digits |
| Competency.ParseKey | app.js:400-401 | reading a key needs a dash and gives non-negative numbers |
| Competency.FormatKeyRoundTrip | app.js:271 | reading back a written key gives the competency it was written from |
| Competency.FormatKeyInjective | app.js:282-286 | two competencies have equal keys exactly when they are equal |
| Competency.MonthName | app.js:646-650 | a month name exists exactly for months 1 to 12 and has three letters |
| Competency.MonthNameInjective | app.js:646-650 | distinct months have distinct names |
| Competency.FormatCompetencia | app.js:641-644 | a label ends with a slash and the year text of the key |
| Competency.FormatCompetenciaOfKey | app.js:641-650 | the label of a written key is the month's short name, a slash and the year |
| Competency.FormatCompetenciaInjective | app.js:641-650 | distinct competencies have distinct labels |
| Closing.ParseStatus | app.js:652-657 | a known status key reads back to the status written under it; an unknown key is no status |
| Closing.StatusKeyRoundTrip | app.js:652-657 | each status's key reads back to that status |
| Closing.StatusName | app.js:652-659 | a known key shows its display name; any other key is shown unchanged |
| Closing.StatusNamesDistinct | app.js:652-659 | the three statuses show under three different names |
| Closing.NewRecord | app.js:290-300 | a new record has the requested key and id, is pending without timestamps or notes, and is stamped now |
| Closing.FindRecord | app.js:285-287 | the lookup finds the first record with the key, and finds none exactly when no record has it |
| Closing.FindRecordUnique | app.js:285-287 | with unique keys, the record found is the only one with its key |
| Closing.UniqueKeysSnoc | app.js:289 | appending a record keeps keys unique exactly when its key was not yet taken |
| Closing.Select | app.js:350 | the filter keeps exactly the records on the requested side of the company test |
| Closing.SelectUnique | app.js:350 | filtering keeps keys unique |
| Closing.Materialize | app.js:277-303 | existing records are untouched; every appended record is a fresh pending one of the company for a walked month; afterwards every walked month has a record |
| Closing.MaterializeAddsMissing | app.js:281-303 | exactly one record is appended per walked month that had none, in walk order |
| Closing.MaterializeUnique | app.js:285-301 | materialisation keeps at most one record per (company, competency) |
| Closing.MaterializeNothingMissing | app.js:285-301 | when every walked month has a record, nothing is added |
| Closing.CreateInitialRecords | app.js:270-304 | the nested year and month loops compute exactly the materialisation of the range from the start through the current month |
| Closing.MaterializeRange | app.js:270-304 | after the initial records every month of the range has exactly one record; the new ones are fresh, in order, for the missing months |
| Closing.MaterializeStartAfterToday | app.js:277 | a start after the current month creates no record |
| Closing.MaterializeOverOthers | app.js:350-351 | over other companies' records, the company's records become exactly the range and the others are kept in order |
| Closing.ResetCompanyRecords | app.js:350-351 | after an edit, other companies' records are unchanged and the company has exactly one fresh pending record per month of the new range |
| Closing.ResetKeepsInvariants | app.js:350-351 | the reset keeps keys unique and records consistent, and adds records only for the edited company |
| Closing.GetOrCreate | app.js:451-473 | the result has the requested key and is in the records; a found record changes nothing; otherwise exactly one fresh record is appended |
| Closing.GetOrCreateIdempotent | app.js:451-473 | a second call for the same key returns the same record and changes nothing |
| Closing.GetOrCreateKeepsInvariants | app.js:451-473 | get-or-create keeps keys unique and records consistent |
| Closing.Transition | app.js:511-527 | moving sets the status and the update time, clears both dates on `pendente`, and sets a missing start or completion to now without overwriting one |
| Closing.UpdateStatus | app.js:506-531 | a missing record or an unchanged status changes nothing; otherwise only the found record is transitioned |
| Closing.UpdateStatusKeepsInvariants | app.js:506-531 | a status change keeps keys unique, records consistent, and every record's id and key |
| Closing.UpdateStatusIdempotent | app.js:511 | dropping a card twice in the same column is the same as dropping it once |
| Closing.PendingToCompleted | app.js:519-521 | a pending record completed directly has a completion time and no start |
| Closing.PendingThroughInProgressToCompleted | app.js:515-521 | pending, then in progress, then completed records both times, the start no later than the completion |
| Closing.CompletedBackToInProgress | app.js:515-521 | reopening a record completed straight from pending keeps the completion time and sets a later start |
| Closing.ElapsedDays | app.js:661-666 | the day count is the floor of the span over the length of a day |
| Closing.ElapsedDaysIsFloor | app.js:661-666 | that floor is the only whole number with the bounding property |
| Closing.ElapsedDaysExamples | app.js:661-666 | the same instant gives 0 days and 36 hours give 1 day |
| Closing.ElapsedDaysMonotone | app.js:661-666 | a later end never gives fewer days, and a non-negative span gives no negative count |
| Registry.FindCompany | app.js:343 | the lookup finds the first company with the id, and finds none exactly when no company has it |
| Registry.EmptyInv | app.js:35-36 | the empty state satisfies the invariant |
| Registry.AddCompany | app.js:237-258 | declined with the empty-code error exactly for a blank-only code and with the duplicate-code error exactly for a code already used; otherwise a new active company with the normalised code is appended |
| Registry.AddCompanyIgnoresAsciiCase | app.js:237-248 | codes typed in different ASCII case get the same verdict: the same refusal or the same new state, so duplicates are refused whatever their case |
| Registry.LowerCaseDuplicateRefused | app.js:237-248 | with `ACME` registered, typing `" acme"` is refused as a duplicate |
| Registry.AddCompanyRecords | app.js:261 | adding a company keeps the old records, adds fresh records only for the new company, exactly for the months of its range that had none, in order, and leaves every month of the range with a record |
| Registry.AppendCompanyKeepsCodes | app.js:245-258 | appending a company with a normal, unused code keeps codes distinct and normal |
| Registry.AddCompanyKeepsInv | app.js:237-258 | adding a company keeps the session invariant |
| Registry.EditCompany | app.js:339-358 | an unknown id changes nothing; otherwise the start and update time change and the company's records are reset to the new range |
| Registry.EditDiscardsHistory | app.js:350-351 | no earlier record of the edited company survives the edit |
| Registry.ReplaceCompanyKeepsCodes | app.js:346-347 | replacing a company by one with the same id and code keeps codes and ids as they were |
| Registry.EditCompanyKeepsInv | app.js:339-358 | editing keeps the session invariant |
| Registry.ToggleCompany | app.js:360-368 | an unknown id changes nothing; otherwise only the company's flag flips and its update time is set |
| Registry.ToggleTwiceRestoresActive | app.js:360-368 | toggling twice restores every company's flag |
| Registry.ToggleCompanyKeepsInv | app.js:360-368 | toggling keeps the session invariant |
| Registry.OtherCompanies | app.js:375 | the filter keeps exactly the companies with another id |
| Registry.OtherCompaniesConcat | app.js:375 | filtering a concatenation filters each part, so the kept companies stay in registry order |
| Registry.OtherCompaniesNone | app.js:375 | when no company has the id, the list is kept as it is |
| Registry.OtherCompaniesSplit | app.js:370-382 | removing a company whose id no other company shares leaves the companies before it and after it, in order |
| Registry.OtherCompaniesUniqueCodes | app.js:375 | filtering companies keeps codes distinct |
| Registry.RemoveCompany | app.js:370-382 | without confirmation nothing changes; after it, exactly the other companies remain, in registry order, and exactly their records, in order |
| Registry.RemoveCompanyKeepsInv | app.js:370-382 | removal keeps the session invariant, with no orphaned record |
| Registry.GetRecord | app.js:451-473 | get-or-create on the session state leaves the companies untouched |
| Registry.GetRecordKeepsInv | app.js:451-473 | get-or-create for an existing company keeps the session invariant |
| Registry.MoveRecord | app.js:506-531 | companies untouched; no record for the selected month, or one already in the target column, leaves the state as it was; otherwise exactly that record is replaced by its `Transition` (status, update time and set-once dates) and every other record is kept |
| Registry.MoveRecordKeepsInv | app.js:506-531 | a status change keeps the session invariant |
| Views.VisibleCompanies | app.js:395-406 | the board shows exactly the active companies whose start is not after the selected competency |
| Views.VisibleCompaniesConcat | app.js:395-406 | the board's companies of a concatenation are those of each part, so the board keeps registry order |
| Views.VisibleCompaniesSingle | app.js:400-406 | a single company is on the board exactly when it is active and its start is not after the selected competency |
| Views.ColumnPass | app.js:398-413 | a pass only appends fresh records for the selected competency, each for a company on the board, leaves every company on the board with a record, and creates nothing when none is missing |
| Views.FindRecordExtend | app.js:452-454 | appending records never changes what an earlier lookup found |
| Views.Cards | app.js:407-412 | every card is a company on the board with the record the lookup finds for the selected competency, in the column's status |
| Views.CardsStable | app.js:407-412 | cards depend only on records already found |
| Views.ColumnPassCards | app.js:398-413 | a pass's cards are exactly the reference column over the records it leaves |
| Views.CardsPartition | app.js:389-415 | the column sizes add up to the number of companies on the board |
| Views.CardsHasCard | app.js:398-412 | a company on the board whose record has the column's status has its card in the column |
| Views.CardsExactlyOneColumn | app.js:389-415 | each company on the board has a card in exactly one column, the one of its record's status, and a company off the board has none |
| Views.RenderBoard | app.js:388-419 | rendering only appends fresh records for the selected competency, each for a company on the board, leaves every company on the board with a record, and creates nothing when none is missing |
| Views.RenderBoardRecords | app.js:389-415 | only the first column pass creates records |
| Views.RenderBoardColumns | app.js:389-415 | the three columns are the reference columns, and their counts add up to the number of companies on the board |
| Views.RenderBoardIdempotent | app.js:389-415 | rendering again creates nothing and shows the same board |
| Views.ColumnPassKeepsInvariants | app.js:407 | a pass keeps keys unique and records consistent |
| Views.RenderBoardKeepsInv | app.js:389-415 | rendering keeps the session invariant |
| Views.ExportDays | app.js:575-579 | the day count is the span from start to completion, or from start to now while open, and 0 without a start |
| Views.DayCellOf | app.js:587 | the day cell is a dash exactly when the count is 0, otherwise the count |
| Views.NotesCell | app.js:588 | missing and empty notes show as a dash, other notes as written |
| Views.ExportRow | app.js:581-589 | a row has the company code, the label of the selected competency, the status name, both dates, the day cell, and the notes or a dash when they are missing or empty |
| Views.ExportEntries | app.js:567-574 | the export lists every active company that has a record for the selected competency, with that record, and no other company |
| Views.ExportEntriesConcat | app.js:567-569 | the export of a concatenation is the export of each part, so rows come in registry order |
| Views.ExportEntriesSingle | app.js:567-574 | a single company is listed, with the record found for it, exactly when it is active and has a record |
| Views.ExportEntriesCount | app.js:567-574 | there is exactly one row per active company that has a record |
| Views.ExportRows | app.js:567-589 | one row per listed company, in order, each being that company's formatted row with all seven cells |
| Views.ExportRowsEmpty | app.js:570-574 | with no records the export has no data rows |
| Views.ExportAfterBoard | app.js:389-415 | after the board has been shown, every company on it has an export row |
| Views.ReopenedShowsNegativeDays | app.js:575-587 | a record completed straight from pending and then reopened later shows a negative day count |
| Views.ReopenedAfterStartKeepsDays | app.js:515-521 | a record that was in progress before completion keeps its first start when reopened, and its day count is not negative |

## Left out

- Persistence: `localStorage`, the JSON downloads and loading the state
  (`carregarDados`, `salvarDados`). A session starts from a given `State`.
- The DOM: modals, alerts, the confirmation dialog (its answer is a
  parameter), drag-and-drop events, the card HTML of `criarCard`, counters'
  text, and `renderizarTabelaEmpresas` with its sorting.
- The 24-month lists of the company modals. They are built like the gallery
  (`Competency.RecentCompetencies` with 24), but their HTML is not modelled.
- ExcelJS: workbook layout, colours and borders. Only each row's cell
  values are modelled.
- Date display: `toLocaleDateString('pt-BR')`. A date cell is kept as an
  instant (`None` is the "-" cell).
- Identifier generation: `Date.now()` plus `Math.random()`. Identifiers are
  supplied by the caller, and their uniqueness is not modelled.
- The real clock. It is the `now` and `today` parameters. Each operation
  reads the clock once, whereas the code calls `new Date()` separately for
  `createdAt` and `updatedAt` (app.js:298-299, 465-466), which can differ by
  a millisecond.
- Competency.NotAfterIsLexicographic: years 0 to 99, which `new Date`
  reads as 1900 to 1999, and negative years are not modelled. Keys are
  written for years from 0, and the gallery is valid from year 1.
- Closing.StatusName: keys that name members every JavaScript object
  inherits (`constructor`, `toString`, `__proto__`, …) find a truthy
  inherited value, which the code returns instead of the key; the model
  returns the key. Every caller passes a record's status, which is one of
  the three status keys.
- Text.JsNumber and Text.ParseIntPrefix: `Number` and `parseInt` are
  modelled only on the texts the board itself writes. That excludes signs,
  blanks, exponents, hexadecimal and fractions.
- Text.Upper: upper-casing covers ASCII and Latin-1 letters only. Mappings
  that change length (`ß`) or leave Latin-1 (`ÿ`, `µ`) are not modelled.
  The contract states the ASCII part only.
- Text.UpperChar: the same limit as `Text.Upper`; the contract states what
  happens to ASCII characters only.
- Text.NormalizeCode: the same limit as `Text.Upper`; the contract states
  the ASCII part of upper-casing only.
- Registry.AddCompany: the start competency comes from a select list of
  valid keys and is taken as a `YearMonth`; the code's parse of it is
  `Competency.ParseKey`.
- Floating-point details of `Math.floor(diff / 86400000)` on spans beyond
  2^53 milliseconds.

=== FILE: closing.dfy ===
/** The closing engine: closing records ("fechamentos") keyed by company and
    competency, their three-state status machine with set-once timestamps,
    the materialisation of one pending record per month, get-or-create, and
    the elapsed-day metric. */
module Closing {

  import opened Common
  import opened Competency

  // ---------------------------------------------------------------------
  // Status
  // ---------------------------------------------------------------------

  /** The three columns of the board: `pendente`, `em-andamento`, `concluido`. */
  datatype Status = Pendente | EmAndamento | Concluido

  /** The key a status is stored and dropped under (the column's element id). */
  function StatusKey(s: Status): string {
    match s
    case Pendente => "pendente"
    case EmAndamento => "em-andamento"
    case Concluido => "concluido"
  }

  function ParseStatus(key: string): (r: Option<Status>)
    ensures r.Some? ==> StatusKey(r.value) == key
    ensures r.None? ==> forall s :: StatusKey(s) != key
  {
    if key == "pendente" then Some(Pendente)
    else if key == "em-andamento" then Some(EmAndamento)
    else if key == "concluido" then Some(Concluido)
    else None
  }

  lemma StatusKeyRoundTrip(s: Status)
    ensures ParseStatus(StatusKey(s)) == Some(s)
  {
  }

  function StatusLabel(s: Status): string {
    match s
    case Pendente => "Pendente"
    case EmAndamento => "Em Andamento"
    case Concluido => "Concluído"
  }

  /** `getNomeStatus(key)`: the display name of a known status key; any other
      key is shown as it is. */
  function StatusName(key: string): (name: string)
    ensures ParseStatus(key).None? ==> name == key
    ensures forall s :: key == StatusKey(s) ==> name == StatusLabel(s)
  {
    match ParseStatus(key)
    case Some(s) => StatusLabel(s)
    case None => key
  }

  /** The three statuses are shown under three different names. */
  lemma StatusNamesDistinct(s: Status, t: Status)
    ensures StatusName(StatusKey(s)) == StatusName(StatusKey(t)) <==> s == t
  {
  }

  // ---------------------------------------------------------------------
  // Records
  // ---------------------------------------------------------------------

  datatype Record = Record(
    id: Id,
    companyId: Id,
    competency: YearMonth,
    status: Status,
    startedAt: Option<Time>,
    completedAt: Option<Time>,
    notes: Option<string>,
    createdAt: Time,
    updatedAt: Time)

  predicate HasKey(r: Record, companyId: Id, competency: YearMonth) {
    r.companyId == companyId && r.competency == competency
  }

  /** At most one record per (company, competency). */
  predicate UniqueKeys(recs: seq<Record>) {
    forall i, j :: 0 <= i < j < |recs| ==> !HasKey(recs[j], recs[i].companyId, recs[i].competency)
  }

  /** The timestamps agree with the status: a pending record has neither
      timestamp, one in progress has a start, a completed one a completion. */
  predicate Consistent(r: Record) {
    && (r.status == Pendente ==> r.startedAt.None? && r.completedAt.None?)
    && (r.status == EmAndamento ==> r.startedAt.Some?)
    && (r.status == Concluido ==> r.completedAt.Some?)
  }

  predicate AllConsistent(recs: seq<Record>) {
    forall r :: r in recs ==> Consistent(r)
  }

  /** A record exactly as it is created: pending, no timestamps, no notes, stamped `now`. */
  predicate IsFresh(r: Record, now: Time) {
    && r.status == Pendente && r.startedAt.None? && r.completedAt.None? && r.notes.None?
    && r.createdAt == now && r.updatedAt == now
  }

  function NewRecord(id: Id, companyId: Id, competency: YearMonth, now: Time): (r: Record)
    ensures HasKey(r, companyId, competency) && r.id == id && IsFresh(r, now) && Consistent(r)
  {
    Record(id, companyId, competency, Pendente, None, None, None, now, now)
  }

  /** `fechamentos.find(f => f.empresaId === companyId && f.competencia === competency)`,
      as the position of the first match. */
  function FindRecord(recs: seq<Record>, companyId: Id, competency: YearMonth): (r: Option<nat>)
    ensures r.Some? ==> r.value < |recs| && HasKey(recs[r.value], companyId, competency)
    ensures r.Some? ==> forall j :: 0 <= j < r.value ==> !HasKey(recs[j], companyId, competency)
    ensures r.None? <==> forall j :: 0 <= j < |recs| ==> !HasKey(recs[j], companyId, competency)
  {
    if |recs| == 0 then None
    else if HasKey(recs[0], companyId, competency) then Some(0)
    else match FindRecord(recs[1..], companyId, competency)
      case Some(k) => Some(k + 1)
      case None => None
  }

  /** Under `UniqueKeys`, the record found is the only one with its key. */
  lemma FindRecordUnique(recs: seq<Record>, companyId: Id, competency: YearMonth, j: int)
    requires UniqueKeys(recs)
    requires 0 <= j < |recs| && HasKey(recs[j], companyId, competency)
    ensures FindRecord(recs, companyId, competency) == Some(j)
  {
  }

  /** Appending a record keeps keys unique exactly when its key was not taken. */
  lemma UniqueKeysSnoc(recs: seq<Record>, r: Record)
    ensures UniqueKeys(recs + [r]) <==> UniqueKeys(recs) && FindRecord(recs, r.companyId, r.competency).None?
  {
    var s := recs + [r];
    if UniqueKeys(s) {
      assert forall i, j :: 0 <= i < j < |recs| ==> recs[i] == s[i] && recs[j] == s[j];
      assert forall j :: 0 <= j < |recs| ==> s[j] == recs[j] && s[|recs|] == r;
    }
  }

  /** The competencies of a list of records, in order. */
  function Competencies(recs: seq<Record>): (ms: seq<YearMonth>)
    ensures |ms| == |recs|
    ensures forall i :: 0 <= i < |recs| ==> ms[i] == recs[i].competency
  {
    seq(|recs|, i requires 0 <= i < |recs| => recs[i].competency)
  }

  lemma CompetenciesSnoc(recs: seq<Record>, r: Record)
    ensures Competencies(recs + [r]) == Competencies(recs) + [r.competency]
  {
  }

  /** `fechamentos.filter(f => f.empresaId !== companyId)` is `Select(recs, companyId, false)`;
      `Select(recs, companyId, true)` is the company's own records. */
  function Select(recs: seq<Record>, companyId: Id, mine: bool): (out: seq<Record>)
    ensures |out| <= |recs|
    ensures forall r :: r in out <==> r in recs && (r.companyId == companyId) == mine
  {
    if |recs| == 0 then []
    else
      var last := recs[|recs| - 1];
      Select(recs[..|recs| - 1], companyId, mine) + (if (last.companyId == companyId) == mine then [last] else [])
  }

  lemma {:induction false} SelectConcat(a: seq<Record>, b: seq<Record>, companyId: Id, mine: bool)
    ensures Select(a + b, companyId, mine) == Select(a, companyId, mine) + Select(b, companyId, mine)
    decreases |b|
  {
    if |b| > 0 {
      var b' := b[..|b| - 1];
      assert (a + b)[..|a + b| - 1] == a + b';
      assert (a + b)[|a + b| - 1] == b[|b| - 1];
      SelectConcat(a, b', companyId, mine);
    } else {
      assert a + b == a;
    }
  }

  /** Records selected by company keep their keys unique. */
  lemma {:induction false} SelectUnique(recs: seq<Record>, companyId: Id, mine: bool)
    requires UniqueKeys(recs)
    ensures UniqueKeys(Select(recs, companyId, mine))
    decreases |recs|
  {
    if |recs| > 0 {
      var init, last := recs[..|recs| - 1], recs[|recs| - 1];
      assert recs == init + [last];
      UniqueKeysSnoc(init, last);
      SelectUnique(init, companyId, mine);
      var s := Select(init, companyId, mine);
      if (last.companyId == companyId) == mine {
        forall j | 0 <= j < |s| ensures !HasKey(s[j], last.companyId, last.competency) {
          assert s[j] in init;
          var i :| 0 <= i < |init| && init[i] == s[j];
        }
        UniqueKeysSnoc(s, last);
      }
    }
  }

  /** Selecting every record of a company that has none, or none of a company
      all of whose records are its own, gives nothing. */
  lemma SelectNone(recs: seq<Record>, companyId: Id, mine: bool)
    requires forall r :: r in recs ==> (r.companyId == companyId) != mine
    ensures Select(recs, companyId, mine) == []
  {
  }

  /** Selecting from records that all qualify keeps them all. */
  lemma {:induction false} SelectAll(recs: seq<Record>, companyId: Id, mine: bool)
    requires forall r :: r in recs ==> (r.companyId == companyId) == mine
    ensures Select(recs, companyId, mine) == recs
    decreases |recs|
  {
    if |recs| > 0 {
      var init, last := recs[..|recs| - 1], recs[|recs| - 1];
      assert recs == init + [last];
      assert last in recs;
      SelectAll(init, companyId, mine);
    }
  }

  // ---------------------------------------------------------------------
  // Materialisation (`criarFechamentosIniciais`)
  // ---------------------------------------------------------------------

  /** Walk `months` in order and append a fresh pending record for each month
      the company has no record for yet; existing records are never touched.
      The record for the `i`-th month of the walk gets the id `ids(i)`. */
  function Materialize(recs: seq<Record>, companyId: Id, months: seq<YearMonth>, now: Time, ids: nat -> Id): (out: seq<Record>)
    ensures |recs| <= |out| && out[..|recs|] == recs
    ensures forall i :: |recs| <= i < |out| ==>
      out[i].companyId == companyId && out[i].competency in months && IsFresh(out[i], now)
    ensures forall m :: m in months ==> FindRecord(out, companyId, m).Some?
    decreases |months|
  {
    if |months| == 0 then recs
    else
      var init, m := months[..|months| - 1], months[|months| - 1];
      var prev := Materialize(recs, companyId, init, now, ids);
      assert months == init + [m];
      if FindRecord(prev, companyId, m).Some? then prev
      else
        var r := NewRecord(ids(|months| - 1), companyId, m, now);
        FoundStaysFound(prev, r, companyId);
        prev + [r]
  }

  /** Appending a record never hides one that was found. */
  lemma FoundStaysFound(recs: seq<Record>, r: Record, companyId: Id)
    ensures forall m :: FindRecord(recs, companyId, m).Some? ==> FindRecord(recs + [r], companyId, m).Some?
    ensures FindRecord(recs + [r], r.companyId, r.competency).Some?
  {
    assert (recs + [r])[|recs|] == r;
    forall m | FindRecord(recs, companyId, m).Some?
      ensures FindRecord(recs + [r], companyId, m).Some?
    {
      var k := FindRecord(recs, companyId, m).value;
      assert (recs + [r])[k] == recs[k];
    }
  }

  /** One more month in the walk: materialise the walk so far, then that month. */
  lemma MaterializeSnoc(recs: seq<Record>, companyId: Id, months: seq<YearMonth>, m: YearMonth, now: Time, ids: nat -> Id)
    ensures var prev := Materialize(recs, companyId, months, now, ids);
      Materialize(recs, companyId, months + [m], now, ids)
      == if FindRecord(prev, companyId, m).Some? then prev else prev + [NewRecord(ids(|months|), companyId, m, now)]
  {
    assert (months + [m])[..|months|] == months;
  }

  /** The months of `months` the company has no record for in `recs`, in order. */
  function MissingMonths(recs: seq<Record>, companyId: Id, months: seq<YearMonth>): seq<YearMonth>
    decreases |months|
  {
    if |months| == 0 then []
    else
      var init, m := months[..|months| - 1], months[|months| - 1];
      MissingMonths(recs, companyId, init) + (if FindRecord(recs, companyId, m).None? then [m] else [])
  }

  predicate Distinct(months: seq<YearMonth>) {
    forall i, j :: 0 <= i < j < |months| ==> months[i] != months[j]
  }

  /** Materialisation appends exactly one record for each month that had none,
      in the order of `months`, and nothing else. */
  lemma {:induction false} MaterializeAddsMissing(recs: seq<Record>, companyId: Id, months: seq<YearMonth>, now: Time, ids: nat -> Id)
    requires Distinct(months)
    ensures Competencies(Materialize(recs, companyId, months, now, ids)[|recs|..]) == MissingMonths(recs, companyId, months)
    decreases |months|
  {
    if |months| > 0 {
      var init, m := months[..|months| - 1], months[|months| - 1];
      var prev := Materialize(recs, companyId, init, now, ids);
      MaterializeAddsMissing(recs, companyId, init, now, ids);
      assert m !in init;
      MaterializeOtherMonth(recs, companyId, init, m, now, ids);
      if FindRecord(prev, companyId, m).None? {
        var out := Materialize(recs, companyId, months, now, ids);
        var r := NewRecord(ids(|months| - 1), companyId, m, now);
        assert out == prev + [r];
        assert out[|recs|..] == prev[|recs|..] + [r];
        CompetenciesSnoc(prev[|recs|..], r);
      }
    }
  }

  /** A month outside the walk is found after materialising exactly when it
      was found before. */
  lemma MaterializeOtherMonth(recs: seq<Record>, companyId: Id, months: seq<YearMonth>, m: YearMonth, now: Time, ids: nat -> Id)
    requires m !in months
    ensures FindRecord(Materialize(recs, companyId, months, now, ids), companyId, m).None?
        <==> FindRecord(recs, companyId, m).None?
  {
    var out := Materialize(recs, companyId, months, now, ids);
    forall j | |recs| <= j < |out|
      ensures !HasKey(out[j], companyId, m)
    {
      assert out[j].competency in months;
    }
    assert forall j :: 0 <= j < |recs| ==> out[j] == recs[j];
  }

  /** Materialisation keeps at most one record per (company, competency). */
  lemma {:induction false} MaterializeUnique(recs: seq<Record>, companyId: Id, months: seq<YearMonth>, now: Time, ids: nat -> Id)
    requires UniqueKeys(recs)
    ensures UniqueKeys(Materialize(recs, companyId, months, now, ids))
    decreases |months|
  {
    if |months| > 0 {
      var init, m := months[..|months| - 1], months[|months| - 1];
      var prev := Materialize(recs, companyId, init, now, ids);
      MaterializeUnique(recs, companyId, init, now, ids);
      if FindRecord(prev, companyId, m).None? {
        UniqueKeysSnoc(prev, NewRecord(ids(|months| - 1), companyId, m, now));
      }
    }
  }

  /** When every month already has a record, materialisation changes nothing. */
  lemma {:induction false} MaterializeNothingMissing(recs: seq<Record>, companyId: Id, months: seq<YearMonth>, now: Time, ids: nat -> Id)
    requires forall m :: m in months ==> FindRecord(recs, companyId, m).Some?
    ensures Materialize(recs, companyId, months, now, ids) == recs
    decreases |months|
  {
    if |months| > 0 {
      var init := months[..|months| - 1];
      assert forall x :: x in init ==> x in months;
      MaterializeNothingMissing(recs, companyId, init, now, ids);
    }
  }

  lemma SameIndexSameMonth(a: YearMonth, b: YearMonth)
    requires ValidMonth(a) && ValidMonth(b) && Index(a) == Index(b)
    ensures a == b
  {
    FromIndexOfIndex(a);
    FromIndexOfIndex(b);
  }

  /** How many months of the range from `start` through `today` come before January of `year`. */
  ghost function MonthsBefore(year: int, start: YearMonth, today: YearMonth): nat {
    var end := if year * 12 <= Index(today) + 1 then year * 12 else Index(today) + 1;
    if end <= Index(start) then 0 else end - Index(start)
  }

  /** `criarFechamentosIniciais` as the source writes it: a loop over the years
      from the start year through the current one, and inside it a loop over
      that year's months, clipped to the start month in the first year and to
      the current month in the last. It computes exactly the materialisation of
      the month range from `start` through `today`. */
  method CreateInitialRecords(recs: seq<Record>, companyId: Id, start: YearMonth, today: YearMonth, now: Time, ids: nat -> Id)
    returns (out: seq<Record>)
    requires ValidMonth(start) && ValidMonth(today)
    ensures out == Materialize(recs, companyId, MonthRange(start, today), now, ids)
  {
    out := recs;
    ghost var produced: seq<YearMonth> := [];
    var offset := 0;
    var year := start.year;
    while year <= today.year
      invariant start.year <= year
      invariant start.year <= today.year ==> year <= today.year + 1
      invariant start.year > today.year ==> year == start.year
      invariant offset == |produced|
      invariant forall i :: 0 <= i < |produced| ==> ValidMonth(produced[i]) && Index(produced[i]) == Index(start) + i
      invariant |produced| == if year == start.year then 0 else MonthsBefore(year, start, today)
      invariant out == Materialize(recs, companyId, produced, now, ids)
      decreases today.year - year
    {
      var monthStart := if year == start.year then start.month else 1;
      var monthEnd := if year == today.year then today.month else 12;
      var month := monthStart;
      while month <= monthEnd
        invariant monthStart <= month
        invariant monthStart <= monthEnd ==> month <= monthEnd + 1
        invariant monthStart > monthEnd ==> month == monthStart && |produced| == 0
        invariant offset == |produced|
        invariant forall i :: 0 <= i < |produced| ==> ValidMonth(produced[i]) && Index(produced[i]) == Index(start) + i
        invariant monthStart <= monthEnd ==> |produced| == year * 12 + month - 1 - Index(start)
        invariant out == Materialize(recs, companyId, produced, now, ids)
        decreases monthEnd - month
      {
        var competency := YearMonth(year, month);
        MaterializeSnoc(recs, companyId, produced, competency, now, ids);
        if FindRecord(out, companyId, competency).None? {
          out := out + [NewRecord(ids(offset), companyId, competency, now)];
        }
        produced := produced + [competency];
        offset := offset + 1;
        month := month + 1;
      }
      year := year + 1;
    }
    assert |produced| == |MonthRange(start, today)|;
    WalkIsMonthRange(produced, start, today);
  }

  /** The months the loops of `CreateInitialRecords` walk, one index step at a
      time from the start, are the month range. */
  lemma WalkIsMonthRange(produced: seq<YearMonth>, start: YearMonth, today: YearMonth)
    requires |produced| == |MonthRange(start, today)|
    requires forall i :: 0 <= i < |produced| ==> ValidMonth(produced[i]) && Index(produced[i]) == Index(start) + i
    ensures produced == MonthRange(start, today)
  {
    var range := MonthRange(start, today);
    forall i | 0 <= i < |range|
      ensures produced[i] == range[i]
    {
      SameIndexSameMonth(produced[i], range[i]);
    }
  }

  lemma MonthRangeDistinct(start: YearMonth, today: YearMonth)
    ensures Distinct(MonthRange(start, today))
  {
    var range := MonthRange(start, today);
    forall i, j | 0 <= i < j < |range| ensures range[i] != range[j] {
      MonthRangeIncreasing(start, today, i, j);
    }
  }

  /** Properties of the initial records of a company: each month from the start
      through the current month gets exactly one record, the new ones are
      pending, stamped `now`, for months that had none, and in chronological order;
      the existing records are untouched. */
  lemma MaterializeRange(recs: seq<Record>, companyId: Id, start: YearMonth, today: YearMonth, now: Time, ids: nat -> Id)
    requires UniqueKeys(recs)
    ensures var out := Materialize(recs, companyId, MonthRange(start, today), now, ids);
      && out[..|recs|] == recs
      && UniqueKeys(out)
      && (forall m :: m in MonthRange(start, today) ==> FindRecord(out, companyId, m).Some?)
      && Competencies(out[|recs|..]) == MissingMonths(recs, companyId, MonthRange(start, today))
      && (forall i :: |recs| <= i < |out| ==> out[i].companyId == companyId && IsFresh(out[i], now))
  {
    var range := MonthRange(start, today);
    MonthRangeDistinct(start, today);
    MaterializeUnique(recs, companyId, range, now, ids);
    MaterializeAddsMissing(recs, companyId, range, now, ids);
  }

  /** A start competency after the current month adds nothing. */
  lemma MaterializeStartAfterToday(recs: seq<Record>, companyId: Id, start: YearMonth, today: YearMonth, now: Time, ids: nat -> Id)
    requires Index(today) < Index(start)
    ensures Materialize(recs, companyId, MonthRange(start, today), now, ids) == recs
  {
  }

  lemma {:induction false} MissingMonthsAll(recs: seq<Record>, companyId: Id, months: seq<YearMonth>)
    requires forall r :: r in recs ==> r.companyId != companyId
    ensures MissingMonths(recs, companyId, months) == months
    decreases |months|
  {
    if |months| > 0 {
      MissingMonthsAll(recs, companyId, months[..|months| - 1]);
      assert months[..|months| - 1] + [months[|months| - 1]] == months;
    }
  }

  /** The records materialisation appends all belong to the company and are fresh. */
  lemma MaterializeAdded(recs: seq<Record>, companyId: Id, months: seq<YearMonth>, now: Time, ids: nat -> Id)
    ensures var out := Materialize(recs, companyId, months, now, ids);
      && out == recs + out[|recs|..]
      && forall r :: r in out[|recs|..] ==> r.companyId == companyId && IsFresh(r, now)
  {
    var out := Materialize(recs, companyId, months, now, ids);
    var added := out[|recs|..];
    assert out == recs + added;
    forall r | r in added ensures r.companyId == companyId && IsFresh(r, now) {
      var k :| 0 <= k < |added| && added[k] == r;
      assert r == out[|recs| + k];
    }
  }

  /** Splitting records of other companies followed by the company's own. */
  lemma SelectSplit(kept: seq<Record>, added: seq<Record>, companyId: Id)
    requires forall r :: r in kept ==> r.companyId != companyId
    requires forall r :: r in added ==> r.companyId == companyId
    ensures Select(kept + added, companyId, false) == kept
    ensures Select(kept + added, companyId, true) == added
  {
    SelectConcat(kept, added, companyId, false);
    SelectConcat(kept, added, companyId, true);
    SelectAll(kept, companyId, false);
    SelectNone(kept, companyId, true);
    SelectNone(added, companyId, false);
    SelectAll(added, companyId, true);
  }

  /** Materialising a company's range over records of other companies only:
      the others stay as they are and the company's records are the range. */
  lemma MaterializeOverOthers(kept: seq<Record>, companyId: Id, start: YearMonth, today: YearMonth, now: Time, ids: nat -> Id)
    requires forall r :: r in kept ==> r.companyId != companyId
    ensures var out := Materialize(kept, companyId, MonthRange(start, today), now, ids);
      && Select(out, companyId, false) == kept
      && Select(out, companyId, true) == out[|kept|..]
      && Competencies(out[|kept|..]) == MonthRange(start, today)
      && forall r :: r in out[|kept|..] ==> r.companyId == companyId && IsFresh(r, now)
  {
    var range := MonthRange(start, today);
    var out := Materialize(kept, companyId, range, now, ids);
    MaterializeAdded(kept, companyId, range, now, ids);
    SelectSplit(kept, out[|kept|..], companyId);
    MonthRangeDistinct(start, today);
    MaterializeAddsMissing(kept, companyId, range, now, ids);
    MissingMonthsAll(kept, companyId, range);
  }

  /** The record side of editing a company's start competency: drop every
      record of the company, then materialise the range from the new start.
      Other companies' records are kept as they were, in order; the company's
      records are exactly one fresh pending record per month of the new range,
      oldest first. */
  function ResetCompanyRecords(recs: seq<Record>, companyId: Id, start: YearMonth, today: YearMonth, now: Time, ids: nat -> Id): (out: seq<Record>)
    ensures Select(out, companyId, false) == Select(recs, companyId, false)
    ensures Competencies(Select(out, companyId, true)) == MonthRange(start, today)
    ensures forall r :: r in Select(out, companyId, true) ==> IsFresh(r, now)
  {
    var kept := Select(recs, companyId, false);
    MaterializeOverOthers(kept, companyId, start, today, now, ids);
    Materialize(kept, companyId, MonthRange(start, today), now, ids)
  }

  lemma ResetKeepsInvariants(recs: seq<Record>, companyId: Id, start: YearMonth, today: YearMonth, now: Time, ids: nat -> Id)
    requires UniqueKeys(recs) && AllConsistent(recs)
    ensures var out := ResetCompanyRecords(recs, companyId, start, today, now, ids);
      && UniqueKeys(out) && AllConsistent(out)
      && forall r :: r in out ==> r in recs || r.companyId == companyId
  {
    var kept := Select(recs, companyId, false);
    var out := ResetCompanyRecords(recs, companyId, start, today, now, ids);
    SelectUnique(recs, companyId, false);
    MaterializeUnique(kept, companyId, MonthRange(start, today), now, ids);
    forall r | r in out ensures (r in recs && Consistent(r)) || (r.companyId == companyId && Consistent(r)) {
      var k :| 0 <= k < |out| && out[k] == r;
      if k < |kept| {
        assert r == kept[k];
      }
    }
  }

  // ---------------------------------------------------------------------
  // Get-or-create (`obterFechamento`)
  // ---------------------------------------------------------------------

  /** The record for (company, competency): the existing one, or a new pending
      one appended to the records. */
  function GetOrCreate(recs: seq<Record>, companyId: Id, competency: YearMonth, newId: Id, now: Time): (res: (seq<Record>, Record))
    ensures HasKey(res.1, companyId, competency) && res.1 in res.0
    ensures FindRecord(recs, companyId, competency).Some? ==> res.0 == recs
    ensures FindRecord(recs, companyId, competency).None? ==>
      res.0 == recs + [res.1] && res.1.id == newId && IsFresh(res.1, now)
  {
    match FindRecord(recs, companyId, competency)
    case Some(i) => (recs, recs[i])
    case None =>
      var r := NewRecord(newId, companyId, competency, now);
      (recs + [r], r)
  }

  /** The record handed back is the one a later lookup finds. */
  lemma GetOrCreateFound(recs: seq<Record>, companyId: Id, competency: YearMonth, newId: Id, now: Time)
    ensures var (out, r) := GetOrCreate(recs, companyId, competency, newId, now);
      FindRecord(out, companyId, competency).Some? && out[FindRecord(out, companyId, competency).value] == r
  {
    var (out, r) := GetOrCreate(recs, companyId, competency, newId, now);
    if FindRecord(recs, companyId, competency).None? {
      assert forall j :: 0 <= j < |recs| ==> out[j] == recs[j];
      assert FindRecord(out, companyId, competency) == Some(|recs|);
    }
  }

  /** Asking again for the same pair returns the same record and changes
      nothing, whatever id and time the second call is given. */
  lemma GetOrCreateIdempotent(recs: seq<Record>, companyId: Id, competency: YearMonth, id1: Id, now1: Time, id2: Id, now2: Time)
    ensures var (recs1, r1) := GetOrCreate(recs, companyId, competency, id1, now1);
      GetOrCreate(recs1, companyId, competency, id2, now2) == (recs1, r1)
  {
    var (recs1, r1) := GetOrCreate(recs, companyId, competency, id1, now1);
    if FindRecord(recs, companyId, competency).None? {
      assert forall j :: 0 <= j < |recs| ==> recs1[j] == recs[j];
      assert FindRecord(recs1, companyId, competency) == Some(|recs|);
    }
  }

  /** Get-or-create keeps at most one record per pair, and all records consistent. */
  lemma GetOrCreateKeepsInvariants(recs: seq<Record>, companyId: Id, competency: YearMonth, newId: Id, now: Time)
    requires UniqueKeys(recs) && AllConsistent(recs)
    ensures UniqueKeys(GetOrCreate(recs, companyId, competency, newId, now).0)
    ensures AllConsistent(GetOrCreate(recs, companyId, competency, newId, now).0)
  {
    if FindRecord(recs, companyId, competency).None? {
      UniqueKeysSnoc(recs, NewRecord(newId, companyId, competency, now));
    }
  }

  // ---------------------------------------------------------------------
  // Status changes (`atualizarStatus`)
  // ---------------------------------------------------------------------

  /** The effect of moving a record to a different column. */
  function Transition(r: Record, target: Status, now: Time): (r': Record)
    ensures r'.status == target && r'.updatedAt == now
    ensures r'.id == r.id && HasKey(r', r.companyId, r.competency)
    ensures r'.notes == r.notes && r'.createdAt == r.createdAt
    ensures Consistent(r')
    // moving to Pendente clears both timestamps, whatever the previous status
    ensures target == Pendente ==> r'.startedAt.None? && r'.completedAt.None?
    // the other two moves set a missing timestamp to now and never overwrite one
    ensures target == EmAndamento ==>
      r'.startedAt == (if r.startedAt.Some? then r.startedAt else Some(now)) && r'.completedAt == r.completedAt
    ensures target == Concluido ==>
      r'.completedAt == (if r.completedAt.Some? then r.completedAt else Some(now)) && r'.startedAt == r.startedAt
  {
    match target
    case Pendente =>
      r.(status := target, updatedAt := now, startedAt := None, completedAt := None)
    case EmAndamento =>
      r.(status := target, updatedAt := now, startedAt := if r.startedAt.None? then Some(now) else r.startedAt)
    case Concluido =>
      r.(status := target, updatedAt := now, completedAt := if r.completedAt.None? then Some(now) else r.completedAt)
  }

  /** Move the record of (company, selected competency) to `target`. Nothing
      happens, not even to `updatedAt`, when there is no such record or it is
      already in `target`; a missing record is not created. */
  function UpdateStatus(recs: seq<Record>, companyId: Id, selected: YearMonth, target: Status, now: Time): (out: seq<Record>)
    ensures |out| == |recs|
    ensures FindRecord(recs, companyId, selected).None? ==> out == recs
    ensures forall i :: FindRecord(recs, companyId, selected) == Some(i) ==>
      (recs[i].status == target ==> out == recs)
      && (recs[i].status != target ==> out == recs[i := Transition(recs[i], target, now)])
  {
    match FindRecord(recs, companyId, selected)
    case None => recs
    case Some(i) =>
      if recs[i].status == target then recs
      else recs[i := Transition(recs[i], target, now)]
  }

  /** A status change keeps keys unique and every record consistent. */
  lemma UpdateStatusKeepsInvariants(recs: seq<Record>, companyId: Id, selected: YearMonth, target: Status, now: Time)
    requires UniqueKeys(recs) && AllConsistent(recs)
    ensures UniqueKeys(UpdateStatus(recs, companyId, selected, target, now))
    ensures AllConsistent(UpdateStatus(recs, companyId, selected, target, now))
    ensures forall j :: 0 <= j < |recs| ==>
      var r := UpdateStatus(recs, companyId, selected, target, now)[j];
      r.id == recs[j].id && HasKey(r, recs[j].companyId, recs[j].competency)
  {
    var out := UpdateStatus(recs, companyId, selected, target, now);
    forall r | r in out ensures Consistent(r) {
      var j :| 0 <= j < |out| && out[j] == r;
    }
  }

  /** Dropping a card twice in the same column is the same as dropping it once. */
  lemma UpdateStatusIdempotent(recs: seq<Record>, companyId: Id, selected: YearMonth, target: Status, now1: Time, now2: Time)
    ensures var once := UpdateStatus(recs, companyId, selected, target, now1);
      UpdateStatus(once, companyId, selected, target, now2) == once
  {
    var once := UpdateStatus(recs, companyId, selected, target, now1);
    match FindRecord(recs, companyId, selected)
    case None =>
    case Some(i) =>
      assert HasKey(once[i], companyId, selected);
      assert forall j :: 0 <= j < i ==> once[j] == recs[j];
      assert FindRecord(once, companyId, selected) == Some(i);
  }

  /** Pendente -> Concluido directly: completed now, never started. */
  lemma PendingToCompleted(r: Record, now: Time)
    requires r.status == Pendente && Consistent(r)
    ensures Transition(r, Concluido, now).startedAt.None?
    ensures Transition(r, Concluido, now).completedAt == Some(now)
  {
  }

  /** Pendente -> EmAndamento -> Concluido with a clock that does not go back:
      both timestamps set, the start no later than the completion. */
  lemma PendingThroughInProgressToCompleted(r: Record, t1: Time, t2: Time)
    requires r.status == Pendente && Consistent(r) && t1 <= t2
    ensures var done := Transition(Transition(r, EmAndamento, t1), Concluido, t2);
      done.startedAt == Some(t1) && done.completedAt == Some(t2) && done.startedAt.value <= done.completedAt.value
  {
  }

  /** Concluido -> EmAndamento keeps the completion time and, for a record
      completed straight from Pendente (so without a start), starts it now:
      afterwards the start is later than the completion. */
  lemma CompletedBackToInProgress(r: Record, now: Time)
    requires r.status == Concluido && Consistent(r) && r.startedAt.None? && r.completedAt.value < now
    ensures var back := Transition(r, EmAndamento, now);
      back.completedAt == r.completedAt && back.startedAt == Some(now)
      && back.completedAt.value < back.startedAt.value
  {
  }

  // ---------------------------------------------------------------------
  // Elapsed days (`calcularDiasDecorridos`)
  // ---------------------------------------------------------------------

  /** 1000 * 60 * 60 * 24 milliseconds. */
  const MsPerDay: int := 86_400_000

  /** `Math.floor((end - start) / MsPerDay)`: the whole days in the span,
      rounded down (so a negative span gives a negative count). */
  function ElapsedDays(start: Time, end: Time): (days: int)
    ensures days * MsPerDay <= end - start < days * MsPerDay + MsPerDay
  {
    (end - start) / MsPerDay
  }

  /** The floor is the only whole number with that property. */
  lemma ElapsedDaysIsFloor(start: Time, end: Time, q: int)
    requires q * MsPerDay <= end - start < q * MsPerDay + MsPerDay
    ensures ElapsedDays(start, end) == q
  {
    var d := ElapsedDays(start, end);
    assert (q - d) * MsPerDay < MsPerDay && (d - q) * MsPerDay < MsPerDay;
  }

  lemma ElapsedDaysExamples(t: Time)
    ensures ElapsedDays(t, t) == 0
    ensures ElapsedDays(t, t + 36 * 60 * 60 * 1000) == 1
  {
    ElapsedDaysIsFloor(t, t, 0);
    ElapsedDaysIsFloor(t, t + 36 * 60 * 60 * 1000, 1);
  }

  /** A later end never gives fewer days, and a non-negative span none below zero. */
  lemma ElapsedDaysMonotone(start: Time, end1: Time, end2: Time)
    requires end1 <= end2
    ensures ElapsedDays(start, end1) <= ElapsedDays(start, end2)
    ensures start <= end1 ==> 0 <= ElapsedDays(start, end1)
  {
  }
}

=== FILE: common.dfy ===
/** Small shared vocabulary: optional values, results with an error, and the
    identifier and time types that the board's data carries. */
module Common {

  /** A value that may be absent (`null` / `undefined` in the board's data). */
  datatype Option<+T> = None | Some(value: T)

  /** The outcome of an operation that can be declined with a reason. */
  datatype Result<+T, +E> = Ok(value: T) | Err(error: E)

  /** Identifiers of companies and closing records. The application builds
      them from the clock and a random suffix; here they are supplied by the
      caller. */
  type Id = nat

  /** An instant, in whole milliseconds since the epoch (what an ISO time
      string denotes once it is turned back into a `Date`). */
  type Time = int
}

=== FILE: competency.dfy ===
/** Competencies: the year-month periods a closing belongs to. The board keeps
    them as `"YYYY-MM"` keys, compares them through `new Date(year, month - 1)`,
    lists months between two of them, and shows them as `"Mes/YYYY"`. */
module Competency {

  import opened Common
  import opened Text

  datatype YearMonth = YearMonth(year: int, month: int)

  predicate ValidMonth(ym: YearMonth) {
    1 <= ym.month <= 12
  }

  /** A competency the board can write as a key: a calendar month of a year
      written without a sign. */
  predicate Valid(ym: YearMonth) {
    0 <= ym.year && ValidMonth(ym)
  }

  /** Months since January of year 0. `new Date(year, month - 1)` orders
      competencies exactly as this number does: a month outside 1..12 rolls
      into the neighbouring year the same way. */
  function Index(ym: YearMonth): int {
    ym.year * 12 + ym.month - 1
  }

  /** The competency a month count denotes: what `new Date(year, month - 1 - i, 1)`
      normalises to. */
  function FromIndex(i: int): (ym: YearMonth)
    ensures ValidMonth(ym) && Index(ym) == i
  {
    YearMonth(i / 12, i % 12 + 1)
  }

  lemma FromIndexOfIndex(ym: YearMonth)
    requires ValidMonth(ym)
    ensures FromIndex(Index(ym)) == ym
  {
    var q, r := Index(ym) / 12, Index(ym) % 12;
    assert 12 * (q - ym.year) == ym.month - 1 - r;
  }

  /** `new Date(a.year, a.month - 1) <= new Date(b.year, b.month - 1)`. */
  predicate NotAfter(a: YearMonth, b: YearMonth) {
    Index(a) <= Index(b)
  }

  /** For calendar months the date comparison is the lexicographic order on
      (year, month). */
  lemma NotAfterIsLexicographic(a: YearMonth, b: YearMonth)
    requires ValidMonth(a) && ValidMonth(b)
    ensures NotAfter(a, b) <==> a.year < b.year || (a.year == b.year && a.month <= b.month)
  {
    if a.year < b.year {
      assert Index(a) <= a.year * 12 + 11 < b.year * 12 <= Index(b);
    } else if a.year > b.year {
      assert Index(b) <= b.year * 12 + 11 < a.year * 12 <= Index(a);
    }
  }

  // ---------------------------------------------------------------------
  // Month lists
  // ---------------------------------------------------------------------

  /** Every month from `from` through `to`, both included, oldest first;
      empty when `from` comes after `to`. */
  function MonthRange(from: YearMonth, to: YearMonth): (r: seq<YearMonth>)
    ensures |r| == if Index(to) < Index(from) then 0 else Index(to) - Index(from) + 1
    ensures forall i :: 0 <= i < |r| ==> ValidMonth(r[i]) && Index(r[i]) == Index(from) + i
  {
    var n := Index(to) - Index(from) + 1;
    if n <= 0 then []
    else
      var r := seq(n, i => FromIndex(Index(from) + i));
      assert forall i :: 0 <= i < n ==> r[i] == FromIndex(Index(from) + i);
      r
  }

  /** A calendar month is listed by `MonthRange` exactly when it lies between the two ends. */
  lemma MonthRangeMembership(from: YearMonth, to: YearMonth, ym: YearMonth)
    requires ValidMonth(ym)
    ensures ym in MonthRange(from, to) <==> NotAfter(from, ym) && NotAfter(ym, to)
  {
    var r := MonthRange(from, to);
    if NotAfter(from, ym) && NotAfter(ym, to) {
      var k := Index(ym) - Index(from);
      FromIndexOfIndex(ym);
      FromIndexOfIndex(r[k]);
      assert r[k] == ym;
    }
  }

  /** `MonthRange` lists strictly increasing months, so no month twice. */
  lemma MonthRangeIncreasing(from: YearMonth, to: YearMonth, i: int, j: int)
    requires 0 <= i < j < |MonthRange(from, to)|
    ensures Index(MonthRange(from, to)[i]) < Index(MonthRange(from, to)[j])
    ensures MonthRange(from, to)[i] != MonthRange(from, to)[j]
  {
  }

  /** The `n` months ending with `today`, newest first. */
  function RecentCompetencies(today: YearMonth, n: nat): (r: seq<YearMonth>)
    ensures |r| == n
    ensures forall i :: 0 <= i < n ==> ValidMonth(r[i]) && Index(r[i]) == Index(today) - i
  {
    seq(n, i => FromIndex(Index(today) - i))
  }

  /** The twelve selectable competencies of the gallery: this month and the eleven before it. */
  function Gallery(today: YearMonth): (r: seq<YearMonth>)
    requires Valid(today)
    ensures |r| == 12 && r[0] == today
    ensures forall i :: 0 <= i < 11 ==> Index(r[i + 1]) == Index(r[i]) - 1
    ensures today.year >= 1 ==> forall i :: 0 <= i < 12 ==> Valid(r[i])
  {
    var r := RecentCompetencies(today, 12);
    FromIndexOfIndex(today);
    assert today.year >= 1 ==> forall i :: 0 <= i < 12 ==> r[i].year >= 0 by {
      if today.year >= 1 {
        forall i | 0 <= i < 12 ensures r[i].year >= 0 {
          assert Index(r[i]) >= 1;
        }
      }
    }
    r
  }

  // ---------------------------------------------------------------------
  // Keys "YYYY-MM"
  // ---------------------------------------------------------------------

  /** `` `${year}-${String(month).padStart(2, '0')}` ``. */
  function FormatKey(ym: YearMonth): (key: string)
    requires Valid(ym)
    ensures |key| >= 4 && AllDigits(key[|key| - 2..]) && key[|key| - 3] == '-'
  {
    NatToString(ym.year) + "-" + PadStart(NatToString(ym.month), 2, '0')
  }

  /** `key.split('-').map(Number)`, keeping the first two numbers as year and
      month. A key with fewer than two pieces, or a piece that is not a number,
      gives no competency. */
  function ParseKey(key: string): (r: Option<YearMonth>)
    ensures r.Some? ==> '-' in key && r.value.year >= 0 && r.value.month >= 0
  {
    var parts := Split(key, '-');
    if |parts| < 2 then None
    else
      match (JsNumber(parts[0]), JsNumber(parts[1]))
      case (Some(y), Some(m)) => Some(YearMonth(y, m))
      case _ => None
  }

  /** The two-digit month piece of a key: digits, and the month's value. */
  lemma MonthPiece(m: int)
    requires 1 <= m <= 12
    ensures AllDigits(PadStart(NatToString(m), 2, '0'))
    ensures DigitsValue(PadStart(NatToString(m), 2, '0')) == m
    ensures ParseIntPrefix(PadStart(NatToString(m), 2, '0')) == Some(m)
  {
    var d := NatToString(m);
    var p := PadStart(d, 2, '0');
    NatToStringRoundTrip(m);
    if m < 10 {
      assert p == ['0'] + d;
      assert p[..1] == ['0'];
      assert DigitsValue(p[..1]) == 0 by {
        assert p[..1][..0] == [];
      }
    } else {
      assert p == d;
    }
  }

  lemma DigitsHaveNoDash(s: string)
    requires AllDigits(s)
    ensures '-' !in s
  {
  }

  lemma FormatKeyPieces(ym: YearMonth)
    requires Valid(ym)
    ensures Split(FormatKey(ym), '-') == [NatToString(ym.year), PadStart(NatToString(ym.month), 2, '0')]
  {
    var y, m := NatToString(ym.year), PadStart(NatToString(ym.month), 2, '0');
    MonthPiece(ym.month);
    DigitsHaveNoDash(y);
    DigitsHaveNoDash(m);
    assert FormatKey(ym) == y + ['-'] + m;
    SplitTwoPieces(y, m, '-');
  }

  /** Reading a key back gives the competency it was written from. */
  lemma FormatKeyRoundTrip(ym: YearMonth)
    requires Valid(ym)
    ensures ParseKey(FormatKey(ym)) == Some(ym)
  {
    FormatKeyPieces(ym);
    NatToStringRoundTrip(ym.year);
    MonthPiece(ym.month);
    ParseKeyOfPieces(FormatKey(ym), NatToString(ym.year), PadStart(NatToString(ym.month), 2, '0'), ym);
  }

  lemma ParseKeyOfPieces(key: string, year: string, month: string, ym: YearMonth)
    requires Split(key, '-') == [year, month]
    requires JsNumber(year) == Some(ym.year) && JsNumber(month) == Some(ym.month)
    ensures ParseKey(key) == Some(ym)
  {
  }

  /** Two competencies have the same key exactly when they are equal, so the
      board's key comparisons (`===`) are comparisons of competencies. */
  lemma FormatKeyInjective(a: YearMonth, b: YearMonth)
    requires Valid(a) && Valid(b)
    ensures FormatKey(a) == FormatKey(b) <==> a == b
  {
    FormatKeyRoundTrip(a);
    FormatKeyRoundTrip(b);
  }

  // ---------------------------------------------------------------------
  // Labels "Mes/YYYY"
  // ---------------------------------------------------------------------

  const MonthNames: seq<string> :=
    ["Jan", "Fev", "Mar", "Abr", "Mai", "Jun", "Jul", "Ago", "Set", "Out", "Nov", "Dez"]

  /** `getNomeMes(m)`: the short Portuguese month name, or `undefined` (`None`) outside 1..12. */
  function MonthName(m: int): (r: Option<string>)
    ensures r.Some? <==> 1 <= m <= 12
    ensures r.Some? ==> |r.value| == 3
  {
    if 1 <= m <= 12 then Some(MonthNames[m - 1]) else None
  }

  /** Distinct months have distinct names. */
  lemma MonthNameInjective(a: int, b: int)
    requires 1 <= a <= 12 && 1 <= b <= 12
    ensures MonthName(a) == MonthName(b) <==> a == b
  {
  }

  /** `formatarCompetencia(key)`: the month name (via `parseInt` of the second
      piece), a slash, and the first piece of the key as written. A missing or
      unknown month prints as `undefined`, as a template string does. */
  function FormatCompetencia(key: string): (text: string)
    ensures var year := Split(key, '-')[0];
      |text| > |year| && text[|text| - |year|..] == year && text[|text| - |year| - 1] == '/'
  {
    var parts := Split(key, '-');
    var month := if |parts| >= 2 then ParseIntPrefix(parts[1]) else None;
    var name := match month
      case Some(m) => (match MonthName(m) case Some(n) => n case None => "undefined")
      case None => "undefined";
    assert (name + "/" + parts[0])[|name| + 1..] == parts[0];
    name + "/" + parts[0]
  }

  /** The label of a competency: `"Mar/2024"` for 2024-03. */
  lemma FormatCompetenciaOfKey(ym: YearMonth)
    requires Valid(ym)
    ensures FormatCompetencia(FormatKey(ym)) == MonthNames[ym.month - 1] + "/" + NatToString(ym.year)
  {
    var m := PadStart(NatToString(ym.month), 2, '0');
    FormatKeyPieces(ym);
    MonthPiece(ym.month);
    FormatCompetenciaOfPieces(FormatKey(ym), NatToString(ym.year), m, ym.month);
  }

  /** The label of a key whose second piece reads as a calendar month. */
  lemma FormatCompetenciaOfPieces(key: string, year: string, month: string, m: int)
    requires Split(key, '-') == [year, month]
    requires 1 <= m <= 12 && ParseIntPrefix(month) == Some(m)
    ensures FormatCompetencia(key) == MonthNames[m - 1] + "/" + year
  {
    assert MonthName(m) == Some(MonthNames[m - 1]);
  }

  lemma SameShapeSameParts(n1: string, y1: string, n2: string, y2: string)
    requires |n1| == 3 && |n2| == 3
    requires n1 + "/" + y1 == n2 + "/" + y2
    ensures n1 == n2 && y1 == y2
  {
    assert n1 == (n1 + "/" + y1)[..3];
    assert n2 == (n2 + "/" + y2)[..3];
    assert y1 == (n1 + "/" + y1)[4..];
    assert y2 == (n2 + "/" + y2)[4..];
  }

  lemma LabelTextInjective(a: YearMonth, b: YearMonth)
    requires Valid(a) && Valid(b)
    requires MonthNames[a.month - 1] + "/" + NatToString(a.year) == MonthNames[b.month - 1] + "/" + NatToString(b.year)
    ensures a == b
  {
    var na, nb := MonthNames[a.month - 1], MonthNames[b.month - 1];
    var ya, yb := NatToString(a.year), NatToString(b.year);
    assert MonthName(a.month) == Some(na) && MonthName(b.month) == Some(nb);
    SameShapeSameParts(na, ya, nb, yb);
    MonthNameInjective(a.month, b.month);
    NatToStringInjective(a.year, b.year);
  }

  /** Different competencies never share a label. */
  lemma FormatCompetenciaInjective(a: YearMonth, b: YearMonth)
    requires Valid(a) && Valid(b)
    ensures FormatCompetencia(FormatKey(a)) == FormatCompetencia(FormatKey(b)) <==> a == b
  {
    FormatCompetenciaOfKey(a);
    FormatCompetenciaOfKey(b);
    if FormatCompetencia(FormatKey(a)) == FormatCompetencia(FormatKey(b)) {
      LabelTextInjective(a, b);
    }
  }
}

=== FILE: registry.dfy ===
/** The company registry and the session state: the list of companies
    ("empresas") and the list of closing records ("fechamentos"), passed in and
    returned whole by every operation. */
module Registry {

  import opened Common
  import opened Text
  import opened Competency
  import opened Closing

  datatype Company = Company(
    id: Id,
    code: string,
    start: YearMonth,
    active: bool,
    createdAt: Time,
    updatedAt: Option<Time>)

  datatype State = State(companies: seq<Company>, records: seq<Record>)

  /** The state when nothing is stored yet. */
  const Empty: State := State([], [])

  /** Why adding a company is declined. */
  datatype AddError = EmptyCode | DuplicateCode

  /** `empresas.find(e => e.id === id)`, as the position of the first match. */
  function FindCompany(cs: seq<Company>, id: Id): (r: Option<nat>)
    ensures r.Some? ==> r.value < |cs| && cs[r.value].id == id
    ensures r.Some? ==> forall j :: 0 <= j < r.value ==> cs[j].id != id
    ensures r.None? <==> forall j :: 0 <= j < |cs| ==> cs[j].id != id
  {
    if |cs| == 0 then None
    else if cs[0].id == id then Some(0)
    else match FindCompany(cs[1..], id)
      case Some(k) => Some(k + 1)
      case None => None
  }

  /** Some company, active or not, already has this code. */
  predicate CodeTaken(cs: seq<Company>, code: string) {
    exists c :: c in cs && c.code == code
  }

  predicate UniqueCodes(cs: seq<Company>) {
    forall i, j :: 0 <= i < j < |cs| ==> cs[i].code != cs[j].code
  }

  /** A code as the registry stores it: non-empty and its own normal form. */
  predicate IsNormalCode(code: string) {
    code != "" && NormalizeCode(code) == code
  }

  /** Every stored code is in normal form. */
  predicate NormalCodes(cs: seq<Company>) {
    forall c :: c in cs ==> IsNormalCode(c.code)
  }

  function CompanyIds(cs: seq<Company>): set<Id> {
    set c | c in cs :: c.id
  }

  /** Every record belongs to a company that exists. */
  predicate NoOrphans(st: State) {
    forall r :: r in st.records ==> r.companyId in CompanyIds(st.companies)
  }

  /** What every operation keeps: distinct normal codes, at most one record per
      (company, competency), timestamps that agree with the status, no orphans. */
  predicate Inv(st: State) {
    && UniqueCodes(st.companies)
    && NormalCodes(st.companies)
    && UniqueKeys(st.records)
    && AllConsistent(st.records)
    && NoOrphans(st)
  }

  lemma EmptyInv()
    ensures Inv(Empty)
  {
  }

  // ---------------------------------------------------------------------
  // adicionarEmpresa
  // ---------------------------------------------------------------------

  /** Register a company under the normalised code and materialise its records
      from `start` through `today`. Declined, with the state unchanged, when the
      code is blank or already used by any company. */
  function AddCompany(st: State, rawCode: string, start: YearMonth, newId: Id, now: Time, today: YearMonth, ids: nat -> Id)
    : (r: Result<State, AddError>)
    ensures r == Err(EmptyCode) <==> AllSpace(rawCode)
    ensures r == Err(DuplicateCode) <==> !AllSpace(rawCode) && CodeTaken(st.companies, NormalizeCode(rawCode))
    ensures r.Ok? ==> r.value.companies == st.companies + [Company(newId, NormalizeCode(rawCode), start, true, now, None)]
  {
    var code := NormalizeCode(rawCode);
    NormalizeCodeEmpty(rawCode);
    if code == "" then Err(EmptyCode)
    else if CodeTaken(st.companies, code) then Err(DuplicateCode)
    else
      var company := Company(newId, code, start, true, now, None);
      Ok(State(st.companies + [company], Materialize(st.records, newId, MonthRange(start, today), now, ids)))
  }

  /** The records of an added company: the old ones first, then one fresh
      pending record for each month from `start` through `today` that had none. */
  lemma AddCompanyRecords(st: State, rawCode: string, start: YearMonth, newId: Id, now: Time, today: YearMonth, ids: nat -> Id)
    requires UniqueKeys(st.records)
    ensures var r := AddCompany(st, rawCode, start, newId, now, today, ids);
      r.Ok? ==>
        && r.value.records[..|st.records|] == st.records
        && UniqueKeys(r.value.records)
        && (forall i :: |st.records| <= i < |r.value.records| ==>
              r.value.records[i].companyId == newId && IsFresh(r.value.records[i], now))
        && (forall m :: m in MonthRange(start, today) ==> FindRecord(r.value.records, newId, m).Some?)
        && Competencies(r.value.records[|st.records|..]) == MissingMonths(st.records, newId, MonthRange(start, today))
  {
    MaterializeRange(st.records, newId, start, today, now, ids);
  }

  /** Codes typed in different ASCII case get the same answer: the same
      refusal, or the same new state. */
  lemma AddCompanyIgnoresAsciiCase(st: State, a: string, b: string, start: YearMonth, newId: Id, now: Time, today: YearMonth, ids: nat -> Id)
    requires SameUpToAsciiCase(a, b)
    ensures AddCompany(st, a, start, newId, now, today, ids) == AddCompany(st, b, start, newId, now, today, ids)
  {
    NormalizeCodeIgnoresAsciiCase(a, b);
    NormalizeCodeEmpty(a);
    NormalizeCodeEmpty(b);
  }

  /** With "ACME" registered, typing " acme" is refused as a duplicate. */
  lemma LowerCaseDuplicateRefused(st: State, k: nat, start: YearMonth, newId: Id, now: Time, today: YearMonth, ids: nat -> Id)
    requires k < |st.companies| && st.companies[k].code == "ACME"
    ensures AddCompany(st, " acme", start, newId, now, today, ids) == Err(DuplicateCode)
  {
    NormalizeLowerCaseAcme();
    assert st.companies[k] in st.companies;
  }

  /** Appending a company whose code is normal and unused keeps codes distinct and normal. */
  lemma AppendCompanyKeepsCodes(cs: seq<Company>, c: Company)
    requires UniqueCodes(cs) && NormalCodes(cs)
    requires IsNormalCode(c.code) && !CodeTaken(cs, c.code)
    ensures UniqueCodes(cs + [c]) && NormalCodes(cs + [c])
    ensures CompanyIds(cs + [c]) == CompanyIds(cs) + {c.id}
  {
    var cs' := cs + [c];
    forall i, j | 0 <= i < j < |cs'| ensures cs'[i].code != cs'[j].code {
      if j == |cs| {
        assert cs'[i] == cs[i] && cs[i] in cs;
      } else {
        assert cs'[i] == cs[i] && cs'[j] == cs[j];
      }
    }
  }

  /** Records appended for company `companyId` are fresh, hence consistent, and
      belong to it; the old ones are kept as they were. */
  lemma ExtendRecordsKeepsOwners(recs: seq<Record>, out: seq<Record>, companyId: Id, now: Time, owners: set<Id>)
    requires |recs| <= |out| && out[..|recs|] == recs
    requires forall i :: |recs| <= i < |out| ==> out[i].companyId == companyId && IsFresh(out[i], now)
    requires AllConsistent(recs) && forall r :: r in recs ==> r.companyId in owners
    ensures AllConsistent(out) && forall r :: r in out ==> r.companyId in owners + {companyId}
  {
    forall x | x in out ensures Consistent(x) && x.companyId in owners + {companyId} {
      var k :| 0 <= k < |out| && out[k] == x;
      if k < |recs| {
        assert x == recs[k] && x in recs;
      }
    }
  }

  /** Adding a company keeps the invariant; in particular codes stay pairwise distinct. */
  lemma AddCompanyKeepsInv(st: State, rawCode: string, start: YearMonth, newId: Id, now: Time, today: YearMonth, ids: nat -> Id)
    requires Inv(st)
    ensures var r := AddCompany(st, rawCode, start, newId, now, today, ids);
      r.Ok? ==> Inv(r.value)
  {
    var r := AddCompany(st, rawCode, start, newId, now, today, ids);
    if r.Ok? {
      var company := Company(newId, NormalizeCode(rawCode), start, true, now, None);
      NormalizeCodeEmpty(rawCode);
      NormalizeCodeIdempotent(rawCode);
      AppendCompanyKeepsCodes(st.companies, company);
      AddCompanyRecords(st, rawCode, start, newId, now, today, ids);
      ExtendRecordsKeepsOwners(st.records, r.value.records, newId, now, CompanyIds(st.companies));
    }
  }

  // ---------------------------------------------------------------------
  // salvarEdicaoEmpresa
  // ---------------------------------------------------------------------

  /** Change a company's start competency: a full reset of its records, which
      discards all of them, completed ones included, and rebuilds the range
      from the new start. An unknown id changes nothing. */
  function EditCompany(st: State, id: Id, newStart: YearMonth, now: Time, today: YearMonth, ids: nat -> Id): (r: State)
    ensures FindCompany(st.companies, id).None? ==> r == st
    ensures FindCompany(st.companies, id).Some? ==>
      var i := FindCompany(st.companies, id).value;
      && r.companies == st.companies[i := st.companies[i].(start := newStart, updatedAt := Some(now))]
      && Select(r.records, id, false) == Select(st.records, id, false)
      && Competencies(Select(r.records, id, true)) == MonthRange(newStart, today)
      && (forall x :: x in Select(r.records, id, true) ==> IsFresh(x, now))
  {
    match FindCompany(st.companies, id)
    case None => st
    case Some(i) =>
      var company := st.companies[i].(start := newStart, updatedAt := Some(now));
      State(st.companies[i := company], ResetCompanyRecords(st.records, id, newStart, today, now, ids))
  }

  /** No record of the edited company survives the edit unless it is a fresh
      pending one created at that moment: a completed closing is lost. The
      exception is forced, not a gap: records are compared as values and ids
      are not required to be unique, so an earlier pending record made at the
      same instant cannot be told apart from the one the edit rebuilds. */
  lemma EditDiscardsHistory(st: State, id: Id, newStart: YearMonth, now: Time, today: YearMonth, ids: nat -> Id, prior: Record)
    requires FindCompany(st.companies, id).Some?
    requires prior in st.records && prior.companyId == id && !IsFresh(prior, now)
    ensures prior !in EditCompany(st, id, newStart, now, today, ids).records
  {
  }

  /** Replacing a company by one with the same id and code keeps codes and ids as they were. */
  lemma ReplaceCompanyKeepsCodes(cs: seq<Company>, i: nat, c: Company)
    requires i < |cs| && c.id == cs[i].id && c.code == cs[i].code
    requires UniqueCodes(cs) && NormalCodes(cs)
    ensures UniqueCodes(cs[i := c]) && NormalCodes(cs[i := c])
    ensures CompanyIds(cs[i := c]) == CompanyIds(cs)
  {
    ReplaceCompanyKeepsNormalCodes(cs, i, c);
    ReplaceCompanyKeepsIds(cs, i, c);
  }

  lemma ReplaceCompanyKeepsNormalCodes(cs: seq<Company>, i: nat, c: Company)
    requires i < |cs| && c.code == cs[i].code
    requires NormalCodes(cs)
    ensures NormalCodes(cs[i := c])
  {
    var cs' := cs[i := c];
    forall x | x in cs' ensures IsNormalCode(x.code) {
      var j :| 0 <= j < |cs'| && cs'[j] == x;
      assert cs[j] in cs;
      assert x.code == cs[j].code;
    }
  }

  lemma ReplaceCompanyKeepsIds(cs: seq<Company>, i: nat, c: Company)
    requires i < |cs| && c.id == cs[i].id
    ensures CompanyIds(cs[i := c]) == CompanyIds(cs)
  {
    var cs' := cs[i := c];
    forall x | x in CompanyIds(cs') ensures x in CompanyIds(cs) {
      var d :| d in cs' && d.id == x;
      var j :| 0 <= j < |cs'| && cs'[j] == d;
      assert cs[j] in cs;
    }
    forall x | x in CompanyIds(cs) ensures x in CompanyIds(cs') {
      var d :| d in cs && d.id == x;
      var j :| 0 <= j < |cs| && cs[j] == d;
      assert cs'[j] in cs';
    }
  }

  lemma EditCompanyKeepsInv(st: State, id: Id, newStart: YearMonth, now: Time, today: YearMonth, ids: nat -> Id)
    requires Inv(st)
    ensures Inv(EditCompany(st, id, newStart, now, today, ids))
  {
    match FindCompany(st.companies, id)
    case None =>
    case Some(i) =>
      var r := EditCompany(st, id, newStart, now, today, ids);
      ResetKeepsInvariants(st.records, id, newStart, today, now, ids);
      ReplaceCompanyKeepsCodes(st.companies, i, st.companies[i].(start := newStart, updatedAt := Some(now)));
      assert st.companies[i] in st.companies;
  }

  // ---------------------------------------------------------------------
  // toggleEmpresa
  // ---------------------------------------------------------------------

  /** Flip a company's `active` flag and stamp it; records are untouched and an
      unknown id changes nothing. */
  function ToggleCompany(st: State, id: Id, now: Time): (r: State)
    ensures r.records == st.records && |r.companies| == |st.companies|
    ensures FindCompany(st.companies, id).None? ==> r == st
    ensures FindCompany(st.companies, id).Some? ==>
      var i := FindCompany(st.companies, id).value;
      && r.companies[i].active == !st.companies[i].active
      && r.companies[i] == st.companies[i].(active := r.companies[i].active, updatedAt := Some(now))
      && forall j :: 0 <= j < |st.companies| && j != i ==> r.companies[j] == st.companies[j]
  {
    match FindCompany(st.companies, id)
    case None => st
    case Some(i) =>
      var c := st.companies[i];
      st.(companies := st.companies[i := c.(active := !c.active, updatedAt := Some(now))])
  }

  /** Toggling twice restores every company's flag. */
  lemma ToggleTwiceRestoresActive(st: State, id: Id, now1: Time, now2: Time)
    ensures var twice := ToggleCompany(ToggleCompany(st, id, now1), id, now2);
      forall j :: 0 <= j < |st.companies| ==> twice.companies[j].active == st.companies[j].active
  {
    var once := ToggleCompany(st, id, now1);
    assert forall j :: 0 <= j < |st.companies| ==> once.companies[j].id == st.companies[j].id;
    assert FindCompany(once.companies, id) == FindCompany(st.companies, id);
  }

  lemma ToggleCompanyKeepsInv(st: State, id: Id, now: Time)
    requires Inv(st)
    ensures Inv(ToggleCompany(st, id, now))
  {
    match FindCompany(st.companies, id)
    case None =>
    case Some(i) =>
      var c := st.companies[i];
      ReplaceCompanyKeepsCodes(st.companies, i, c.(active := !c.active, updatedAt := Some(now)));
  }

  // ---------------------------------------------------------------------
  // removerEmpresa
  // ---------------------------------------------------------------------

  /** `empresas.filter(e => e.id !== id)`. */
  function OtherCompanies(cs: seq<Company>, id: Id): (out: seq<Company>)
    ensures forall c :: c in out <==> c in cs && c.id != id
  {
    if |cs| == 0 then []
    else
      var last := cs[|cs| - 1];
      OtherCompanies(cs[..|cs| - 1], id) + (if last.id != id then [last] else [])
  }

  /** Filtering a concatenation filters each part, so the kept companies stay
      in registry order. */
  lemma {:induction false} OtherCompaniesConcat(a: seq<Company>, b: seq<Company>, id: Id)
    ensures OtherCompanies(a + b, id) == OtherCompanies(a, id) + OtherCompanies(b, id)
    decreases |b|
  {
    if |b| > 0 {
      var b' := b[..|b| - 1];
      assert (a + b)[..|a + b| - 1] == a + b';
      OtherCompaniesConcat(a, b', id);
    } else {
      assert a + b == a;
    }
  }

  /** When no company has the id, the filter keeps the list as it is. */
  lemma {:induction false} OtherCompaniesNone(cs: seq<Company>, id: Id)
    requires forall i :: 0 <= i < |cs| ==> cs[i].id != id
    ensures OtherCompanies(cs, id) == cs
    decreases |cs|
  {
    if |cs| > 0 {
      var init, last := cs[..|cs| - 1], cs[|cs| - 1];
      OtherCompaniesNone(init, id);
      assert cs == init + [last];
    }
  }

  /** Removing a company from the middle of the registry, when no other
      company shares its id, leaves the companies before it and after it, in
      order. */
  lemma OtherCompaniesSplit(before: seq<Company>, c: Company, after: seq<Company>)
    requires forall i :: 0 <= i < |before| ==> before[i].id != c.id
    requires forall i :: 0 <= i < |after| ==> after[i].id != c.id
    ensures OtherCompanies(before + [c] + after, c.id) == before + after
  {
    OtherCompaniesConcat(before + [c], after, c.id);
    OtherCompaniesConcat(before, [c], c.id);
    assert OtherCompanies([c], c.id) == [] by {
      assert [c][..0] == [];
    }
    OtherCompaniesNone(before, c.id);
    OtherCompaniesNone(after, c.id);
    assert OtherCompanies(before + [c], c.id) == before;
  }

  lemma {:induction false} OtherCompaniesUniqueCodes(cs: seq<Company>, id: Id)
    requires UniqueCodes(cs)
    ensures UniqueCodes(OtherCompanies(cs, id))
    decreases |cs|
  {
    if |cs| > 0 {
      var init, last := cs[..|cs| - 1], cs[|cs| - 1];
      assert forall i, j :: 0 <= i < j < |init| ==> init[i] == cs[i] && init[j] == cs[j];
      OtherCompaniesUniqueCodes(init, id);
      var s := OtherCompanies(init, id);
      if last.id != id {
        forall i | 0 <= i < |s| ensures s[i].code != last.code {
          assert s[i] in init;
          var k :| 0 <= k < |init| && init[k] == s[i];
          assert cs[k] == s[i];
        }
      }
    }
  }

  /** Delete a company and, in cascade, every record of it, once the user has
      confirmed; declining the confirmation changes nothing. */
  function RemoveCompany(st: State, id: Id, confirmed: bool): (r: State)
    ensures !confirmed ==> r == st
    ensures confirmed ==> forall c :: c in r.companies <==> c in st.companies && c.id != id
    ensures confirmed ==> r.companies == OtherCompanies(st.companies, id)
    ensures confirmed ==> forall x :: x in r.records <==> x in st.records && x.companyId != id
    ensures confirmed ==> r.records == Select(st.records, id, false)
  {
    if !confirmed then st
    else State(OtherCompanies(st.companies, id), Select(st.records, id, false))
  }

  lemma RemoveCompanyKeepsInv(st: State, id: Id, confirmed: bool)
    requires Inv(st)
    ensures Inv(RemoveCompany(st, id, confirmed))
  {
    if confirmed {
      var r := RemoveCompany(st, id, confirmed);
      OtherCompaniesUniqueCodes(st.companies, id);
      SelectUnique(st.records, id, false);
      forall x | x in r.records ensures x.companyId in CompanyIds(r.companies) {
        var c :| c in st.companies && c.id == x.companyId;
        assert c in r.companies;
      }
    }
  }

  // ---------------------------------------------------------------------
  // Record operations on the whole state
  // ---------------------------------------------------------------------

  /** `obterFechamento` on the session state. */
  function GetRecord(st: State, companyId: Id, competency: YearMonth, newId: Id, now: Time): (res: (State, Record))
    ensures res.0.companies == st.companies
    ensures HasKey(res.1, companyId, competency) && res.1 in res.0.records
    ensures FindRecord(st.records, companyId, competency).Some? ==> res.0 == st
    ensures FindRecord(st.records, companyId, competency).None? ==> res.0.records == st.records + [res.1] && IsFresh(res.1, now)
  {
    var (recs, r) := GetOrCreate(st.records, companyId, competency, newId, now);
    (st.(records := recs), r)
  }

  /** Get-or-create on an existing company keeps the invariant. */
  lemma GetRecordKeepsInv(st: State, companyId: Id, competency: YearMonth, newId: Id, now: Time)
    requires Inv(st) && companyId in CompanyIds(st.companies)
    ensures Inv(GetRecord(st, companyId, competency, newId, now).0)
  {
    GetOrCreateKeepsInvariants(st.records, companyId, competency, newId, now);
  }

  /** `atualizarStatus` on the session state, for the selected competency. */
  function MoveRecord(st: State, companyId: Id, selected: YearMonth, target: Status, now: Time): (r: State)
    ensures r.companies == st.companies && |r.records| == |st.records|
    ensures FindRecord(st.records, companyId, selected).None? ==> r == st
    ensures forall i :: FindRecord(st.records, companyId, selected) == Some(i) ==>
      (st.records[i].status == target ==> r == st)
      && (st.records[i].status != target ==>
            r.records == st.records[i := Transition(st.records[i], target, now)])
  {
    st.(records := UpdateStatus(st.records, companyId, selected, target, now))
  }

  lemma MoveRecordKeepsInv(st: State, companyId: Id, selected: YearMonth, target: Status, now: Time)
    requires Inv(st)
    ensures Inv(MoveRecord(st, companyId, selected, target, now))
  {
    var r := MoveRecord(st, companyId, selected, target, now);
    UpdateStatusKeepsInvariants(st.records, companyId, selected, target, now);
    forall x | x in r.records ensures exists c :: c in r.companies && c.id == x.companyId {
      var j :| 0 <= j < |r.records| && r.records[j] == x;
      assert st.records[j] in st.records;
    }
  }
}

=== FILE: text.dfy ===
/** String handling the board relies on: decimal digits (for `String(n)`,
    `Number(s)` and `parseInt(s)`), `split` on a separator, `padStart`,
    and the `trim().toUpperCase()` normalisation of company codes. */
module Text {

  import opened Common

  // ---------------------------------------------------------------------
  // Decimal digits
  // ---------------------------------------------------------------------

  predicate IsDigit(c: char) {
    '0' <= c <= '9'
  }

  predicate AllDigits(s: string) {
    forall i :: 0 <= i < |s| ==> IsDigit(s[i])
  }

  function DigitValue(c: char): (d: nat)
    requires IsDigit(c)
    ensures d < 10
  {
    c as int - '0' as int
  }

  function DigitChar(d: nat): (c: char)
    requires d < 10
    ensures IsDigit(c) && DigitValue(c) == d
  {
    ('0' as int + d) as char
  }

  /** `String(n)` for a non-negative integer: its decimal digits, no padding. */
  function NatToString(n: nat): (s: string)
    ensures |s| > 0 && AllDigits(s)
    ensures |s| == 1 <==> n < 10
  {
    if n < 10 then [DigitChar(n)] else NatToString(n / 10) + [DigitChar(n % 10)]
  }

  /** The number a non-empty run of decimal digits denotes (leading zeros allowed). */
  function DigitsValue(s: string): nat
    requires AllDigits(s)
  {
    if |s| == 0 then 0 else DigitsValue(s[..|s| - 1]) * 10 + DigitValue(s[|s| - 1])
  }

  lemma {:induction false} NatToStringRoundTrip(n: nat)
    ensures DigitsValue(NatToString(n)) == n
  {
    var s := NatToString(n);
    if n < 10 {
      assert s[..|s| - 1] == [];
    } else {
      assert s[..|s| - 1] == NatToString(n / 10);
      NatToStringRoundTrip(n / 10);
    }
  }

  lemma NatToStringInjective(a: nat, b: nat)
    ensures NatToString(a) == NatToString(b) <==> a == b
  {
    NatToStringRoundTrip(a);
    NatToStringRoundTrip(b);
  }

  /** `Number(s)` restricted to the strings the board produces: a string of
      decimal digits denotes its value (the empty string denotes 0); anything
      else is `NaN`, written `None`. */
  function JsNumber(s: string): (r: Option<nat>)
    ensures r.Some? <==> AllDigits(s)
  {
    if AllDigits(s) then Some(DigitsValue(s)) else None
  }

  /** The longest prefix of `s` made of decimal digits. */
  function DigitPrefix(s: string): (p: string)
    ensures AllDigits(p) && |p| <= |s| && p == s[..|p|]
    ensures |p| < |s| ==> !IsDigit(s[|p|])
  {
    if |s| == 0 || !IsDigit(s[0]) then "" else [s[0]] + DigitPrefix(s[1..])
  }

  /** `parseInt(s)` on a string without leading blanks or sign: the value of
      its leading digits, `NaN` (`None`) when it does not start with one. */
  function ParseIntPrefix(s: string): (r: Option<nat>)
    ensures r.Some? <==> |s| > 0 && IsDigit(s[0])
    ensures AllDigits(s) && |s| > 0 ==> r == Some(DigitsValue(s))
  {
    var p := DigitPrefix(s);
    assert AllDigits(s) ==> p == s;
    if |p| == 0 then None else Some(DigitsValue(p))
  }

  // ---------------------------------------------------------------------
  // split and padStart
  // ---------------------------------------------------------------------

  /** `s.split(sep)` for a one-character separator: the maximal pieces of `s`
      between separators, always at least one (possibly empty) piece. */
  function Split(s: string, sep: char): (parts: seq<string>)
    ensures |parts| >= 1
    ensures |parts| == 1 <==> sep !in s
  {
    if |s| == 0 then [""]
    else
      var rest := Split(s[1..], sep);
      if s[0] == sep then [""] + rest
      else [[s[0]] + rest[0]] + rest[1..]
  }

  lemma {:induction false} SplitNoSeparator(a: string, sep: char)
    requires sep !in a
    ensures Split(a, sep) == [a]
  {
    if |a| > 0 {
      SplitNoSeparator(a[1..], sep);
      assert [a[0]] + a[1..] == a;
    }
  }

  /** Splitting a string whose first piece is `a` yields `a` and then the pieces of the rest. */
  lemma {:induction false} SplitAtFirst(a: string, b: string, sep: char)
    requires sep !in a
    ensures Split(a + [sep] + b, sep) == [a] + Split(b, sep)
  {
    var s := a + [sep] + b;
    if |a| == 0 {
      assert s[1..] == b;
    } else {
      assert s[0] == a[0];
      assert s[1..] == a[1..] + [sep] + b;
      SplitAtFirst(a[1..], b, sep);
      assert [a[0]] + a[1..] == a;
    }
  }

  /** A string with one separator splits into the two sides. */
  lemma SplitTwoPieces(a: string, b: string, sep: char)
    requires sep !in a && sep !in b
    ensures Split(a + [sep] + b, sep) == [a, b]
  {
    SplitAtFirst(a, b, sep);
    SplitNoSeparator(b, sep);
  }

  /** `s.padStart(width, fill)`: `s` preceded by as many `fill` characters as
      it takes to reach `width`; a string already that long is unchanged. */
  function PadStart(s: string, width: nat, fill: char): (r: string)
    ensures |r| == if |s| >= width then |s| else width
    ensures r[|r| - |s|..] == s
    ensures forall i :: 0 <= i < |r| - |s| ==> r[i] == fill
    decreases width - |s|
  {
    if |s| >= width then s
    else
      var r := PadStart([fill] + s, width, fill);
      assert r[|r| - |s|..] == ([fill] + s)[1..];
      r
  }

  // ---------------------------------------------------------------------
  // trim and toUpperCase
  // ---------------------------------------------------------------------

  /** The characters `String.prototype.trim` removes: the ECMAScript
      WhiteSpace and LineTerminator characters. */
  predicate IsJsSpace(c: char) {
    || c == '\t' || c == '\U{000B}' || c == '\U{000C}' || c == ' '
    || c == '\U{00A0}' || c == '\U{FEFF}'
    || c == '\n' || c == '\r' || c == '\U{2028}' || c == '\U{2029}'
    || c == '\U{1680}' || ('\U{2000}' <= c <= '\U{200A}')
    || c == '\U{202F}' || c == '\U{205F}' || c == '\U{3000}'
  }

  predicate AllSpace(s: string) {
    forall i :: 0 <= i < |s| ==> IsJsSpace(s[i])
  }

  /** True when `s` neither starts nor ends with a blank. */
  predicate Trimmed(s: string) {
    |s| == 0 || (!IsJsSpace(s[0]) && !IsJsSpace(s[|s| - 1]))
  }

  /** The position of the first non-blank of `s` at or after `from`, or `|s|`. */
  function SkipBlanks(s: string, from: nat): (i: nat)
    requires from <= |s|
    ensures from <= i <= |s|
    ensures forall k :: from <= k < i ==> IsJsSpace(s[k])
    ensures i < |s| ==> !IsJsSpace(s[i])
    decreases |s| - from
  {
    if from < |s| && IsJsSpace(s[from]) then SkipBlanks(s, from + 1) else from
  }

  /** The end of `s[lo..hi]` once its trailing blanks are dropped. */
  function SkipBlanksBack(s: string, lo: nat, hi: nat): (j: nat)
    requires lo <= hi <= |s|
    ensures lo <= j <= hi
    ensures forall k :: j <= k < hi ==> IsJsSpace(s[k])
    ensures j > lo ==> !IsJsSpace(s[j - 1])
    decreases hi
  {
    if hi > lo && IsJsSpace(s[hi - 1]) then SkipBlanksBack(s, lo, hi - 1) else hi
  }

  /** `s.trim()`: `s` without its leading and trailing blanks. */
  function Trim(s: string): (r: string)
    ensures Trimmed(r) && |r| <= |s|
    ensures |r| == 0 <==> AllSpace(s)
    ensures Trimmed(s) ==> r == s
  {
    var i := SkipBlanks(s, 0);
    var j := SkipBlanksBack(s, i, |s|);
    s[i..j]
  }

  /** What `trim` removes are blanks, at the two ends only: the result is a
      slice of `s`, and every character before or after it is a blank. */
  lemma TrimRemovesOnlyBlanks(s: string)
    ensures var i := SkipBlanks(s, 0);
      && i + |Trim(s)| <= |s| && Trim(s) == s[i..i + |Trim(s)|]
      && forall k :: 0 <= k < i || i + |Trim(s)| <= k < |s| ==> IsJsSpace(s[k])
  {
  }

  /** `toUpperCase` on one character: ASCII and Latin-1 small letters map to
      their capitals, every other character is kept. */
  function UpperChar(c: char): (u: char)
    ensures !('a' <= u <= 'z')
    ensures IsJsSpace(u) <==> IsJsSpace(c)
    ensures 'a' <= c <= 'z' ==> u as int == c as int - 32
    ensures c < '\U{0080}' && !('a' <= c <= 'z') ==> u == c
  {
    if 'a' <= c <= 'z' then (c as int - 32) as char
    else if '\U{00E0}' <= c <= '\U{00FE}' && c != '\U{00F7}' then (c as int - 32) as char
    else c
  }

  /** `s.toUpperCase()`, character by character. */
  function Upper(s: string): (r: string)
    ensures |r| == |s|
    ensures forall i :: 0 <= i < |r| ==> !('a' <= r[i] <= 'z') && (IsJsSpace(r[i]) <==> IsJsSpace(s[i]))
    ensures forall i :: 0 <= i < |s| && 'a' <= s[i] <= 'z' ==> r[i] as int == s[i] as int - 32
    ensures forall i :: 0 <= i < |s| && s[i] < '\U{0080}' && !('a' <= s[i] <= 'z') ==> r[i] == s[i]
  {
    seq(|s|, i requires 0 <= i < |s| => UpperChar(s[i]))
  }

  lemma UpperIdempotent(s: string)
    ensures Upper(Upper(s)) == Upper(s)
  {
  }

  /** The normal form of a company code: `code.trim().toUpperCase()`. */
  function NormalizeCode(raw: string): (code: string)
    ensures Trimmed(code) && |code| <= |raw|
    ensures |code| == |Trim(raw)|
    ensures forall i :: 0 <= i < |code| ==> !('a' <= code[i] <= 'z')
    ensures forall i :: 0 <= i < |code| && 'a' <= Trim(raw)[i] <= 'z' ==> code[i] as int == Trim(raw)[i] as int - 32
    ensures forall i :: 0 <= i < |code| && Trim(raw)[i] < '\U{0080}' && !('a' <= Trim(raw)[i] <= 'z') ==> code[i] == Trim(raw)[i]
  {
    Upper(Trim(raw))
  }

  /** A code that is already normal is its own normal form, so normalising twice changes nothing. */
  lemma NormalizeCodeIdempotent(raw: string)
    ensures NormalizeCode(NormalizeCode(raw)) == NormalizeCode(raw)
  {
    var c := NormalizeCode(raw);
    assert Trim(c) == c;
    UpperIdempotent(Trim(raw));
  }

  /** A blank-only input normalises to the empty code, and only such inputs do. */
  lemma NormalizeCodeEmpty(raw: string)
    ensures NormalizeCode(raw) == "" <==> AllSpace(raw)
  {
  }

  /** Two characters that are equal, or an ASCII small letter and its capital. */
  predicate SameLetterIgnoringCase(x: char, y: char) {
    || x == y
    || ('a' <= x <= 'z' && y as int == x as int - 32)
    || ('a' <= y <= 'z' && x as int == y as int - 32)
  }

  /** Two texts that differ at most in the ASCII case of their letters. */
  predicate SameUpToAsciiCase(a: string, b: string) {
    |a| == |b| && forall i :: 0 <= i < |a| ==> SameLetterIgnoringCase(a[i], b[i])
  }

  lemma {:induction false} SkipBlanksSamePattern(a: string, b: string, from: nat)
    requires from <= |a| == |b|
    requires forall k :: 0 <= k < |a| ==> (IsJsSpace(a[k]) <==> IsJsSpace(b[k]))
    ensures SkipBlanks(a, from) == SkipBlanks(b, from)
    decreases |a| - from
  {
    if from < |a| && IsJsSpace(a[from]) {
      SkipBlanksSamePattern(a, b, from + 1);
    }
  }

  lemma {:induction false} SkipBlanksBackSamePattern(a: string, b: string, lo: nat, hi: nat)
    requires lo <= hi <= |a| == |b|
    requires forall k :: 0 <= k < |a| ==> (IsJsSpace(a[k]) <==> IsJsSpace(b[k]))
    ensures SkipBlanksBack(a, lo, hi) == SkipBlanksBack(b, lo, hi)
    decreases hi
  {
    if hi > lo && IsJsSpace(a[hi - 1]) {
      SkipBlanksBackSamePattern(a, b, lo, hi - 1);
    }
  }

  /** Trimming texts that differ only in case cuts them at the same places. */
  lemma TrimSameUpToAsciiCase(a: string, b: string)
    requires SameUpToAsciiCase(a, b)
    ensures SameUpToAsciiCase(Trim(a), Trim(b))
  {
    assert forall k :: 0 <= k < |a| ==> (IsJsSpace(a[k]) <==> IsJsSpace(b[k]));
    SkipBlanksSamePattern(a, b, 0);
    var i := SkipBlanks(a, 0);
    SkipBlanksBackSamePattern(a, b, i, |a|);
  }

  /** Upper-casing texts that differ only in ASCII case gives the same text. */
  lemma UpperSameUpToAsciiCase(a: string, b: string)
    requires SameUpToAsciiCase(a, b)
    ensures Upper(a) == Upper(b)
  {
    forall k | 0 <= k < |a| ensures Upper(a)[k] == Upper(b)[k] {
      assert SameLetterIgnoringCase(a[k], b[k]);
    }
  }

  /** Codes typed in different ASCII case normalise to the same code, so the
      registry's duplicate test (`===` on normalised codes) ignores case. */
  lemma NormalizeCodeIgnoresAsciiCase(a: string, b: string)
    requires SameUpToAsciiCase(a, b)
    ensures NormalizeCode(a) == NormalizeCode(b)
  {
    TrimSameUpToAsciiCase(a, b);
    UpperSameUpToAsciiCase(Trim(a), Trim(b));
  }

  /** A worked case: a leading blank is dropped and the letters are capitalised. */
  lemma NormalizeLowerCaseAcme()
    ensures NormalizeCode(" acme") == "ACME"
  {
    var s := " acme";
    assert SkipBlanks(s, 1) == 1;
    assert SkipBlanks(s, 0) == 1;
    assert SkipBlanksBack(s, 1, 5) == 5;
    assert Trim(s) == "acme";
    var u := Upper("acme");
    assert u[0] == 'A' && u[1] == 'C' && u[2] == 'M' && u[3] == 'E';
  }
}

=== FILE: views.dfy ===
/** What the user sees for the selected competency: the three-column board
    and the rows of the spreadsheet export. Rendering the board has a side
    effect the export does not have: it creates the missing records. */
module Views {

  import opened Common
  import opened Text
  import opened Competency
  import opened Closing
  import opened Registry

  // ---------------------------------------------------------------------
  // Board (`renderizarKanban`)
  // ---------------------------------------------------------------------

  /** A company is on the board when it is active and its start competency
      is not after the selected one. */
  predicate Visible(c: Company, selected: YearMonth) {
    c.active && NotAfter(c.start, selected)
  }

  /** The companies on the board, in registry order (`VisibleCompaniesConcat`). */
  function VisibleCompanies(cs: seq<Company>, selected: YearMonth): (vs: seq<Company>)
    ensures |vs| <= |cs|
    ensures forall c :: c in vs <==> c in cs && Visible(c, selected)
  {
    if |cs| == 0 then []
    else
      var c := cs[|cs| - 1];
      VisibleCompanies(cs[..|cs| - 1], selected) + (if Visible(c, selected) then [c] else [])
  }

  /** Filtering a concatenation filters each part, so the board keeps registry order. */
  lemma {:induction false} VisibleCompaniesConcat(a: seq<Company>, b: seq<Company>, selected: YearMonth)
    ensures VisibleCompanies(a + b, selected) == VisibleCompanies(a, selected) + VisibleCompanies(b, selected)
    decreases |b|
  {
    if |b| > 0 {
      var b' := b[..|b| - 1];
      assert (a + b)[..|a + b| - 1] == a + b';
      VisibleCompaniesConcat(a, b', selected);
    } else {
      assert a + b == a;
    }
  }

  lemma VisibleCompaniesSingle(c: Company, selected: YearMonth)
    ensures VisibleCompanies([c], selected) == if Visible(c, selected) then [c] else []
  {
    assert [c][..0] == [];
  }

  /** Every company on the board has a record for the selected competency. */
  predicate AllVisibleFound(cs: seq<Company>, recs: seq<Record>, selected: YearMonth) {
    forall k :: 0 <= k < |cs| && Visible(cs[k], selected) ==> FindRecord(recs, cs[k].id, selected).Some?
  }

  datatype Card = Card(company: Company, record: Record)

  /** The ids of the companies on the board. */
  function BoardIds(cs: seq<Company>, selected: YearMonth): set<Id> {
    set c | c in cs && Visible(c, selected) :: c.id
  }

  /** One column's pass over the companies: for each company on the board,
      get or create its record (the new record of the `k`-th company gets the
      id `ids(k)`), and make a card when the record's status is the column's. */
  function ColumnPass(cs: seq<Company>, recs: seq<Record>, selected: YearMonth, column: Status, now: Time, ids: nat -> Id)
    : (res: (seq<Record>, seq<Card>))
    ensures |recs| <= |res.0| && res.0[..|recs|] == recs
    ensures forall i :: |recs| <= i < |res.0| ==>
      res.0[i].competency == selected && res.0[i].companyId in CompanyIds(cs) && IsFresh(res.0[i], now)
    ensures forall i :: |recs| <= i < |res.0| ==> res.0[i].companyId in BoardIds(cs, selected)
    ensures AllVisibleFound(cs, res.0, selected)
    ensures AllVisibleFound(cs, recs, selected) ==> res.0 == recs
    decreases |cs|
  {
    if |cs| == 0 then (recs, [])
    else
      var init, c := cs[..|cs| - 1], cs[|cs| - 1];
      var (prevRecs, prevCards) := ColumnPass(init, recs, selected, column, now, ids);
      var (recs', r) := GetOrCreate(prevRecs, c.id, selected, ids(|cs| - 1), now);
      var next := if Visible(c, selected) then recs' else prevRecs;
      ColumnPassStep(cs, recs, prevRecs, next, selected, now, ids(|cs| - 1));
      ColumnPassStepOnBoard(cs, recs, prevRecs, next, selected, now, ids(|cs| - 1));
      (next, if Visible(c, selected) && r.status == column then prevCards + [Card(c, r)] else prevCards)
  }

  /** The inductive step of `ColumnPass`: handling the last company keeps the
      pass's guarantees. */
  lemma ColumnPassStep(cs: seq<Company>, recs: seq<Record>, prev: seq<Record>, next: seq<Record>, selected: YearMonth, now: Time, newId: Id)
    requires |cs| > 0
    requires |recs| <= |prev| && prev[..|recs|] == recs
    requires forall i :: |recs| <= i < |prev| ==>
      prev[i].competency == selected && prev[i].companyId in CompanyIds(cs[..|cs| - 1]) && IsFresh(prev[i], now)
    requires AllVisibleFound(cs[..|cs| - 1], prev, selected)
    requires AllVisibleFound(cs[..|cs| - 1], recs, selected) ==> prev == recs
    requires next == if Visible(cs[|cs| - 1], selected) then GetOrCreate(prev, cs[|cs| - 1].id, selected, newId, now).0 else prev
    ensures |recs| <= |next| && next[..|recs|] == recs
    ensures forall i :: |recs| <= i < |next| ==>
      next[i].competency == selected && next[i].companyId in CompanyIds(cs) && IsFresh(next[i], now)
    ensures AllVisibleFound(cs, next, selected)
    ensures AllVisibleFound(cs, recs, selected) ==> next == recs
  {
    ColumnPassStepPrefix(cs, recs, prev, next, selected, now, newId);
    ColumnPassStepFound(cs, prev, next, selected, now, newId);
    ColumnPassStepUnchanged(cs, recs, prev, next, selected, now, newId);
  }

  /** `ColumnPassStep`, first part: the earlier records stay a prefix, and
      whatever follows them is fresh, for the selected competency and owned by
      one of the companies. */
  lemma ColumnPassStepPrefix(cs: seq<Company>, recs: seq<Record>, prev: seq<Record>, next: seq<Record>, selected: YearMonth, now: Time, newId: Id)
    requires |cs| > 0
    requires |recs| <= |prev| && prev[..|recs|] == recs
    requires forall i :: |recs| <= i < |prev| ==>
      prev[i].competency == selected && prev[i].companyId in CompanyIds(cs[..|cs| - 1]) && IsFresh(prev[i], now)
    requires next == if Visible(cs[|cs| - 1], selected) then GetOrCreate(prev, cs[|cs| - 1].id, selected, newId, now).0 else prev
    ensures |recs| <= |next| && next[..|recs|] == recs
    ensures forall i :: |recs| <= i < |next| ==>
      next[i].competency == selected && next[i].companyId in CompanyIds(cs) && IsFresh(next[i], now)
  {
    var init, c := cs[..|cs| - 1], cs[|cs| - 1];
    assert forall k :: 0 <= k < |init| ==> init[k] == cs[k];
    assert forall x :: x in CompanyIds(init) ==> x in CompanyIds(cs);
    assert c in cs;
    assert |prev| <= |next| && next[..|prev|] == prev;
    assert next[..|recs|] == prev[..|recs|];
  }

  /** `ColumnPassStep`, second part: afterwards every company on the board so
      far has a record for the selected competency. */
  lemma ColumnPassStepFound(cs: seq<Company>, prev: seq<Record>, next: seq<Record>, selected: YearMonth, now: Time, newId: Id)
    requires |cs| > 0
    requires AllVisibleFound(cs[..|cs| - 1], prev, selected)
    requires next == if Visible(cs[|cs| - 1], selected) then GetOrCreate(prev, cs[|cs| - 1].id, selected, newId, now).0 else prev
    ensures AllVisibleFound(cs, next, selected)
  {
    var init, c := cs[..|cs| - 1], cs[|cs| - 1];
    assert forall k :: 0 <= k < |init| ==> init[k] == cs[k];
    assert |prev| <= |next| && next[..|prev|] == prev;
    FindRecordsKept(prev, next, selected);
    if Visible(c, selected) {
      var (_, r) := GetOrCreate(prev, c.id, selected, newId, now);
      assert FindRecord(next, c.id, selected).Some? by {
        var j :| 0 <= j < |next| && next[j] == r;
      }
    }
  }

  /** `ColumnPassStep`, third part: a pass over records that already cover the
      board creates nothing. */
  lemma ColumnPassStepUnchanged(cs: seq<Company>, recs: seq<Record>, prev: seq<Record>, next: seq<Record>, selected: YearMonth, now: Time, newId: Id)
    requires |cs| > 0
    requires |recs| <= |prev| && prev[..|recs|] == recs
    requires AllVisibleFound(cs[..|cs| - 1], recs, selected) ==> prev == recs
    requires next == if Visible(cs[|cs| - 1], selected) then GetOrCreate(prev, cs[|cs| - 1].id, selected, newId, now).0 else prev
    ensures AllVisibleFound(cs, recs, selected) ==> next == recs
  {
    var init, c := cs[..|cs| - 1], cs[|cs| - 1];
    if AllVisibleFound(cs, recs, selected) {
      assert forall k :: 0 <= k < |init| ==> init[k] == cs[k];
      assert AllVisibleFound(init, recs, selected);
      if Visible(c, selected) {
        FindRecordExtend(recs, prev, c.id, selected);
      }
    }
  }

  /** The inductive step of `ColumnPass`, for ownership: a record is created
      only for a company on the board. */
  lemma ColumnPassStepOnBoard(cs: seq<Company>, recs: seq<Record>, prev: seq<Record>, next: seq<Record>, selected: YearMonth, now: Time, newId: Id)
    requires |cs| > 0
    requires |recs| <= |prev|
    requires forall i :: |recs| <= i < |prev| ==> prev[i].companyId in BoardIds(cs[..|cs| - 1], selected)
    requires next == if Visible(cs[|cs| - 1], selected) then GetOrCreate(prev, cs[|cs| - 1].id, selected, newId, now).0 else prev
    ensures forall i :: |recs| <= i < |next| ==> next[i].companyId in BoardIds(cs, selected)
  {
    var init, c := cs[..|cs| - 1], cs[|cs| - 1];
    forall x | x in BoardIds(init, selected) ensures x in BoardIds(cs, selected) {
      var d :| d in init && Visible(d, selected) && d.id == x;
      assert d in cs;
    }
    if Visible(c, selected) {
      assert c in cs;
      assert c.id in BoardIds(cs, selected);
    }
  }

  /** Appending records never changes what an earlier lookup found. */
  lemma FindRecordExtend(a: seq<Record>, b: seq<Record>, companyId: Id, competency: YearMonth)
    requires |a| <= |b| && b[..|a|] == a
    requires FindRecord(a, companyId, competency).Some?
    ensures FindRecord(b, companyId, competency) == FindRecord(a, companyId, competency)
  {
    var k := FindRecord(a, companyId, competency).value;
    assert b[k] == a[k];
    assert forall j :: 0 <= j < k ==> b[j] == a[j];
  }

  lemma FindRecordsKept(a: seq<Record>, b: seq<Record>, competency: YearMonth)
    requires |a| <= |b| && b[..|a|] == a
    ensures forall cid :: FindRecord(a, cid, competency).Some? ==> FindRecord(b, cid, competency) == FindRecord(a, cid, competency)
  {
    forall cid | FindRecord(a, cid, competency).Some?
      ensures FindRecord(b, cid, competency) == FindRecord(a, cid, competency)
    {
      FindRecordExtend(a, b, cid, competency);
    }
  }

  /** Reference definition of a column: the board's companies, in order, whose
      record for the selected competency has the column's status. */
  function Cards(cs: seq<Company>, recs: seq<Record>, selected: YearMonth, column: Status): (cards: seq<Card>)
    ensures |cards| <= |cs|
    ensures forall card :: card in cards ==>
      && card.company in cs && Visible(card.company, selected)
      && card.record.status == column && HasKey(card.record, card.company.id, selected)
      && card.record in recs
      && FindRecord(recs, card.company.id, selected).Some?
      && card.record == recs[FindRecord(recs, card.company.id, selected).value]
  {
    if |cs| == 0 then []
    else
      var c := cs[|cs| - 1];
      var prev := Cards(cs[..|cs| - 1], recs, selected, column);
      assert forall x :: x in cs[..|cs| - 1] ==> x in cs;
      if !Visible(c, selected) then prev
      else match FindRecord(recs, c.id, selected)
        case None => prev
        case Some(i) => if recs[i].status == column then prev + [Card(c, recs[i])] else prev
  }

  /** Cards only depend on records already found: appending more changes nothing. */
  lemma {:induction false} CardsStable(cs: seq<Company>, a: seq<Record>, b: seq<Record>, selected: YearMonth, column: Status)
    requires |a| <= |b| && b[..|a|] == a
    requires AllVisibleFound(cs, a, selected)
    ensures Cards(cs, a, selected, column) == Cards(cs, b, selected, column)
    decreases |cs|
  {
    if |cs| > 0 {
      var init, c := cs[..|cs| - 1], cs[|cs| - 1];
      assert forall k :: 0 <= k < |init| ==> init[k] == cs[k];
      CardsStable(init, a, b, selected, column);
      if Visible(c, selected) {
        FindRecordExtend(a, b, c.id, selected);
      }
    }
  }

  /** The cards a pass produces are exactly the reference column over the
      records the pass leaves behind. */
  lemma {:induction false} ColumnPassCards(cs: seq<Company>, recs: seq<Record>, selected: YearMonth, column: Status, now: Time, ids: nat -> Id)
    ensures var (out, cards) := ColumnPass(cs, recs, selected, column, now, ids);
      cards == Cards(cs, out, selected, column)
    decreases |cs|
  {
    if |cs| > 0 {
      var init, c := cs[..|cs| - 1], cs[|cs| - 1];
      var (prevRecs, prevCards) := ColumnPass(init, recs, selected, column, now, ids);
      var (out, cards) := ColumnPass(cs, recs, selected, column, now, ids);
      ColumnPassCards(init, recs, selected, column, now, ids);
      ColumnPassSnoc(cs, recs, selected, column, now, ids);
      CardsStable(init, prevRecs, out, selected, column);
      CardsSnoc(cs, out, selected, column);
      if Visible(c, selected) {
        GetOrCreateFound(prevRecs, c.id, selected, ids(|cs| - 1), now);
      }
    }
  }

  /** One step of a pass: the last company gets or creates its record, and
      adds its card when the record's status is the column's. */
  lemma ColumnPassSnoc(cs: seq<Company>, recs: seq<Record>, selected: YearMonth, column: Status, now: Time, ids: nat -> Id)
    requires |cs| > 0
    ensures var c := cs[|cs| - 1];
      var (prevRecs, prevCards) := ColumnPass(cs[..|cs| - 1], recs, selected, column, now, ids);
      var (recs', r) := GetOrCreate(prevRecs, c.id, selected, ids(|cs| - 1), now);
      && AllVisibleFound(cs[..|cs| - 1], prevRecs, selected)
      && ColumnPass(cs, recs, selected, column, now, ids).0 == (if Visible(c, selected) then recs' else prevRecs)
      && ColumnPass(cs, recs, selected, column, now, ids).1 ==
           (if Visible(c, selected) && r.status == column then prevCards + [Card(c, r)] else prevCards)
  {
  }

  /** One step of the reference column: the last company adds at most its own card. */
  lemma CardsSnoc(cs: seq<Company>, recs: seq<Record>, selected: YearMonth, column: Status)
    requires |cs| > 0
    ensures var c := cs[|cs| - 1];
      var found := FindRecord(recs, c.id, selected);
      Cards(cs, recs, selected, column) == Cards(cs[..|cs| - 1], recs, selected, column)
        + (if Visible(c, selected) && found.Some? && recs[found.value].status == column then [Card(c, recs[found.value])] else [])
  {
  }

  /** The column sizes add up to the number of companies on the board. */
  lemma {:induction false} CardsPartition(cs: seq<Company>, recs: seq<Record>, selected: YearMonth)
    requires AllVisibleFound(cs, recs, selected)
    ensures |Cards(cs, recs, selected, Pendente)| + |Cards(cs, recs, selected, EmAndamento)| + |Cards(cs, recs, selected, Concluido)|
      == |VisibleCompanies(cs, selected)|
    decreases |cs|
  {
    if |cs| > 0 {
      var init := cs[..|cs| - 1];
      assert forall k :: 0 <= k < |init| ==> init[k] == cs[k];
      CardsPartition(init, recs, selected);
      assert Visible(cs[|cs| - 1], selected) ==> FindRecord(recs, cs[|cs| - 1].id, selected).Some?;
    }
  }

  /** Some card of the list is for company `c`. */
  predicate HasCardFor(cards: seq<Card>, c: Company) {
    exists card :: card in cards && card.company == c
  }

  /** The reference column holds the card of every company on the board whose
      record has the column's status. */
  lemma {:induction false} CardsHasCard(cs: seq<Company>, recs: seq<Record>, selected: YearMonth, column: Status, k: nat)
    requires k < |cs| && Visible(cs[k], selected) && FindRecord(recs, cs[k].id, selected).Some?
    requires recs[FindRecord(recs, cs[k].id, selected).value].status == column
    ensures Card(cs[k], recs[FindRecord(recs, cs[k].id, selected).value]) in Cards(cs, recs, selected, column)
    decreases |cs|
  {
    CardsSnoc(cs, recs, selected, column);
    if k < |cs| - 1 {
      var init := cs[..|cs| - 1];
      assert init[k] == cs[k];
      CardsHasCard(init, recs, selected, column, k);
    }
  }

  /** Each company on the board has a card in exactly one column: the one of
      its record's status. A company off the board has no card. */
  lemma CardsExactlyOneColumn(cs: seq<Company>, recs: seq<Record>, selected: YearMonth, k: nat)
    requires k < |cs| && AllVisibleFound(cs, recs, selected)
    ensures !Visible(cs[k], selected) ==> forall column :: !HasCardFor(Cards(cs, recs, selected, column), cs[k])
    ensures Visible(cs[k], selected) ==> forall column ::
      HasCardFor(Cards(cs, recs, selected, column), cs[k]) <==> column == recs[FindRecord(recs, cs[k].id, selected).value].status
  {
    if Visible(cs[k], selected) {
      var i := FindRecord(recs, cs[k].id, selected).value;
      forall column | column == recs[i].status ensures HasCardFor(Cards(cs, recs, selected, column), cs[k]) {
        CardsHasCard(cs, recs, selected, column, k);
      }
    }
  }

  datatype Board = Board(records: seq<Record>, pending: seq<Card>, inProgress: seq<Card>, done: seq<Card>)

  /** The three column passes in the source's order; each column's counter is
      the length of its card list. */
  function RenderBoard(st: State, selected: YearMonth, now: Time, ids: nat -> Id): (b: Board)
    ensures |st.records| <= |b.records| && b.records[..|st.records|] == st.records
    ensures forall i :: |st.records| <= i < |b.records| ==>
      && b.records[i].companyId in BoardIds(st.companies, selected)
      && b.records[i].competency == selected && IsFresh(b.records[i], now)
    ensures AllVisibleFound(st.companies, b.records, selected)
    ensures AllVisibleFound(st.companies, st.records, selected) ==> b.records == st.records
  {
    var (r1, p) := ColumnPass(st.companies, st.records, selected, Pendente, now, ids);
    var (r2, e) := ColumnPass(st.companies, r1, selected, EmAndamento, now, ids);
    var (r3, c) := ColumnPass(st.companies, r2, selected, Concluido, now, ids);
    Board(r3, p, e, c)
  }

  /** Only the first pass creates records: the other two find every record they need. */
  lemma RenderBoardRecords(st: State, selected: YearMonth, now: Time, ids: nat -> Id)
    ensures RenderBoard(st, selected, now, ids).records == ColumnPass(st.companies, st.records, selected, Pendente, now, ids).0
  {
  }

  /** Only the first pass creates records, every column is the reference
      column over the final records, and the column sizes add up to the number
      of companies on the board. */
  lemma RenderBoardColumns(st: State, selected: YearMonth, now: Time, ids: nat -> Id)
    ensures var b := RenderBoard(st, selected, now, ids);
      && b.records == ColumnPass(st.companies, st.records, selected, Pendente, now, ids).0
      && b.pending == Cards(st.companies, b.records, selected, Pendente)
      && b.inProgress == Cards(st.companies, b.records, selected, EmAndamento)
      && b.done == Cards(st.companies, b.records, selected, Concluido)
      && |b.pending| + |b.inProgress| + |b.done| == |VisibleCompanies(st.companies, selected)|
  {
    var b := RenderBoard(st, selected, now, ids);
    var r1 := ColumnPass(st.companies, st.records, selected, Pendente, now, ids).0;
    RenderBoardRecords(st, selected, now, ids);
    ColumnPassCards(st.companies, st.records, selected, Pendente, now, ids);
    ColumnPassCards(st.companies, r1, selected, EmAndamento, now, ids);
    ColumnPassCards(st.companies, r1, selected, Concluido, now, ids);
    CardsPartition(st.companies, r1, selected);
  }

  /** Rendering twice creates nothing the second time and shows the same board. */
  lemma RenderBoardIdempotent(st: State, selected: YearMonth, now1: Time, ids1: nat -> Id, now2: Time, ids2: nat -> Id)
    ensures var b1 := RenderBoard(st, selected, now1, ids1);
      RenderBoard(st.(records := b1.records), selected, now2, ids2) == b1
  {
    var b1 := RenderBoard(st, selected, now1, ids1);
    var b2 := RenderBoard(st.(records := b1.records), selected, now2, ids2);
    RenderBoardColumns(st, selected, now1, ids1);
    RenderBoardColumns(st.(records := b1.records), selected, now2, ids2);
  }

  /** A column pass keeps keys unique and records consistent: it only
      creates a record when the company has none for the competency. */
  lemma {:induction false} ColumnPassKeepsInvariants(cs: seq<Company>, recs: seq<Record>, selected: YearMonth, column: Status, now: Time, ids: nat -> Id)
    requires UniqueKeys(recs) && AllConsistent(recs)
    ensures UniqueKeys(ColumnPass(cs, recs, selected, column, now, ids).0)
    ensures AllConsistent(ColumnPass(cs, recs, selected, column, now, ids).0)
    decreases |cs|
  {
    if |cs| > 0 {
      var init, c := cs[..|cs| - 1], cs[|cs| - 1];
      var prevRecs := ColumnPass(init, recs, selected, column, now, ids).0;
      ColumnPassKeepsInvariants(init, recs, selected, column, now, ids);
      if Visible(c, selected) {
        GetOrCreateKeepsInvariants(prevRecs, c.id, selected, ids(|cs| - 1), now);
      }
    }
  }

  /** Rendering keeps the session invariant. */
  lemma RenderBoardKeepsInv(st: State, selected: YearMonth, now: Time, ids: nat -> Id)
    requires Inv(st)
    ensures Inv(st.(records := RenderBoard(st, selected, now, ids).records))
  {
    var r1 := ColumnPass(st.companies, st.records, selected, Pendente, now, ids).0;
    RenderBoardRecords(st, selected, now, ids);
    ColumnPassKeepsInvariants(st.companies, st.records, selected, Pendente, now, ids);
    PassKeepsOwners(st.records, r1, CompanyIds(st.companies));
  }

  lemma PassKeepsOwners(recs: seq<Record>, out: seq<Record>, owners: set<Id>)
    requires |recs| <= |out| && out[..|recs|] == recs
    requires forall i :: |recs| <= i < |out| ==> out[i].companyId in owners
    requires forall r :: r in recs ==> r.companyId in owners
    ensures forall r :: r in out ==> r.companyId in owners
  {
    forall x | x in out ensures x.companyId in owners {
      var k :| 0 <= k < |out| && out[k] == x;
      if k < |recs| {
        assert x == recs[k] && x in recs;
      }
    }
  }

  // ---------------------------------------------------------------------
  // Export (`exportarExcel`)
  // ---------------------------------------------------------------------

  /** The "Dias Decorridos" cell: a count, or "-" when the count is 0. */
  datatype DayCell = Days(n: int) | Dash

  /** One spreadsheet row. Dates stay instants (`None` is the "-" cell);
      their locale formatting is not modelled. */
  datatype Row = Row(
    code: string,
    competency: string,
    status: string,
    startedAt: Option<Time>,
    completedAt: Option<Time>,
    days: DayCell,
    notes: string)

  /** Days from start to completion when both are set, from start to now when
      only the start is, 0 otherwise. */
  function ExportDays(r: Record, now: Time): (days: int)
    ensures r.startedAt.Some? && r.completedAt.Some? ==>
      days * MsPerDay <= r.completedAt.value - r.startedAt.value < days * MsPerDay + MsPerDay
    ensures r.startedAt.Some? && r.completedAt.None? ==>
      days * MsPerDay <= now - r.startedAt.value < days * MsPerDay + MsPerDay
    ensures r.startedAt.None? ==> days == 0
  {
    if r.startedAt.Some? && r.completedAt.Some? then ElapsedDays(r.startedAt.value, r.completedAt.value)
    else if r.startedAt.Some? then ElapsedDays(r.startedAt.value, now)
    else 0
  }

  /** `dias || '-'`. */
  function DayCellOf(days: int): (cell: DayCell)
    ensures cell == Dash <==> days == 0
    ensures cell.Days? ==> cell.n == days
  {
    if days == 0 then Dash else Days(days)
  }

  /** `observacoes || '-'`: absent and empty notes both show as "-". */
  function NotesCell(notes: Option<string>): (cell: string)
    ensures cell == "-" <==> notes == None || notes == Some("") || notes == Some("-")
    ensures notes.Some? && notes.value != "" ==> cell == notes.value
  {
    if notes.None? || notes.value == "" then "-" else notes.value
  }

  function ExportRow(c: Company, r: Record, selected: YearMonth, now: Time): (row: Row)
    requires Valid(selected)
    ensures row.code == c.code
    ensures row.competency == MonthNames[selected.month - 1] + "/" + NatToString(selected.year)
    ensures row.status == StatusLabel(r.status)
    ensures row.startedAt == r.startedAt && row.completedAt == r.completedAt
    ensures row.days == DayCellOf(ExportDays(r, now))
    ensures row.notes == NotesCell(r.notes)
    ensures r.notes.None? || r.notes == Some("") ==> row.notes == "-"
    ensures r.notes.Some? && r.notes.value != "" ==> row.notes == r.notes.value
  {
    FormatCompetenciaOfKey(selected);
    StatusKeyRoundTrip(r.status);
    Row(c.code, FormatCompetencia(FormatKey(selected)), StatusName(StatusKey(r.status)),
        r.startedAt, r.completedAt, DayCellOf(ExportDays(r, now)), NotesCell(r.notes))
  }

  /** The export lists a company when it is active and has a record for the selected competency. */
  predicate Exported(c: Company, recs: seq<Record>, selected: YearMonth) {
    c.active && FindRecord(recs, c.id, selected).Some?
  }

  /** A company listed by the export, with its record for the selected competency. */
  datatype Entry = Entry(company: Company, record: Record)

  /** The (company, record) pairs the export lists, in registry order: every
      active company that already has a record for the selected competency,
      with that record. The export never creates a record and does not look
      at the start competency. */
  function ExportEntries(cs: seq<Company>, recs: seq<Record>, selected: YearMonth): (es: seq<Entry>)
    ensures |es| <= |cs|
    ensures forall k :: 0 <= k < |cs| && Exported(cs[k], recs, selected) ==>
      Entry(cs[k], recs[FindRecord(recs, cs[k].id, selected).value]) in es
    ensures forall e :: e in es ==>
      && e.company in cs && Exported(e.company, recs, selected)
      && e.record == recs[FindRecord(recs, e.company.id, selected).value]
  {
    if |cs| == 0 then []
    else
      var init, c := cs[..|cs| - 1], cs[|cs| - 1];
      var prev := ExportEntries(init, recs, selected);
      assert forall k :: 0 <= k < |init| ==> init[k] == cs[k];
      assert forall x :: x in init ==> x in cs;
      if Exported(c, recs, selected) then prev + [Entry(c, recs[FindRecord(recs, c.id, selected).value])] else prev
  }

  /** The export of a concatenation is the export of each part, so rows come
      in registry order. */
  lemma {:induction false} ExportEntriesConcat(a: seq<Company>, b: seq<Company>, recs: seq<Record>, selected: YearMonth)
    ensures ExportEntries(a + b, recs, selected) == ExportEntries(a, recs, selected) + ExportEntries(b, recs, selected)
    decreases |b|
  {
    if |b| > 0 {
      var b' := b[..|b| - 1];
      assert (a + b)[..|a + b| - 1] == a + b';
      ExportEntriesConcat(a, b', recs, selected);
    } else {
      assert a + b == a;
    }
  }

  lemma ExportEntriesSingle(c: Company, recs: seq<Record>, selected: YearMonth)
    ensures ExportEntries([c], recs, selected) ==
      if Exported(c, recs, selected) then [Entry(c, recs[FindRecord(recs, c.id, selected).value])] else []
  {
    assert [c][..0] == [];
  }

  /** The positions at which `flags` holds. */
  function TruePositions(flags: seq<bool>): set<int> {
    set k | 0 <= k < |flags| && flags[k]
  }

  lemma TruePositionsSnoc(flags: seq<bool>)
    requires |flags| > 0
    ensures |TruePositions(flags)| == |TruePositions(flags[..|flags| - 1])| + (if flags[|flags| - 1] then 1 else 0)
  {
    var n := |flags| - 1;
    var before, after := TruePositions(flags[..n]), TruePositions(flags);
    var last: set<int> := if flags[n] then {n} else {};
    assert after == before + last;
    assert n !in before;
  }

  /** Which companies the export lists, position by position. */
  function ExportFlags(cs: seq<Company>, recs: seq<Record>, selected: YearMonth): (flags: seq<bool>)
    ensures |flags| == |cs|
    ensures forall k :: 0 <= k < |cs| ==> flags[k] == Exported(cs[k], recs, selected)
  {
    seq(|cs|, k requires 0 <= k < |cs| => Exported(cs[k], recs, selected))
  }

  /** The export has exactly one entry per active company with a record. */
  lemma {:induction false} ExportEntriesCount(cs: seq<Company>, recs: seq<Record>, selected: YearMonth)
    ensures |ExportEntries(cs, recs, selected)| == |TruePositions(ExportFlags(cs, recs, selected))|
    decreases |cs|
  {
    if |cs| > 0 {
      var init := cs[..|cs| - 1];
      ExportEntriesCount(init, recs, selected);
      var flags := ExportFlags(cs, recs, selected);
      ExportEntriesSnoc(cs, recs, selected);
      ExportFlagsSnoc(cs, recs, selected);
      TruePositionsSnoc(flags);
    }
  }

  lemma ExportEntriesSnoc(cs: seq<Company>, recs: seq<Record>, selected: YearMonth)
    requires |cs| > 0
    ensures |ExportEntries(cs, recs, selected)| ==
      |ExportEntries(cs[..|cs| - 1], recs, selected)| + (if Exported(cs[|cs| - 1], recs, selected) then 1 else 0)
  {
  }

  lemma ExportFlagsSnoc(cs: seq<Company>, recs: seq<Record>, selected: YearMonth)
    requires |cs| > 0
    ensures ExportFlags(cs[..|cs| - 1], recs, selected) == ExportFlags(cs, recs, selected)[..|cs| - 1]
    ensures ExportFlags(cs, recs, selected)[|cs| - 1] == Exported(cs[|cs| - 1], recs, selected)
  {
  }

  /** The spreadsheet's data rows: one formatted row per export entry. */
  function ExportRows(cs: seq<Company>, recs: seq<Record>, selected: YearMonth, now: Time): (rows: seq<Row>)
    requires Valid(selected)
    ensures |rows| == |ExportEntries(cs, recs, selected)|
    ensures forall i :: 0 <= i < |rows| ==>
      var e := ExportEntries(cs, recs, selected)[i];
      rows[i] == ExportRow(e.company, e.record, selected, now)
    ensures forall i :: 0 <= i < |rows| ==>
      var e := ExportEntries(cs, recs, selected)[i];
      rows[i].code == e.company.code && rows[i].status == StatusLabel(e.record.status)
      && rows[i].days == DayCellOf(ExportDays(e.record, now))
  {
    var es := ExportEntries(cs, recs, selected);
    seq(|es|, i requires 0 <= i < |es| => ExportRow(es[i].company, es[i].record, selected, now))
  }

  /** With no records at all the spreadsheet has no data rows. */
  lemma ExportRowsEmpty(cs: seq<Company>, selected: YearMonth, now: Time)
    requires Valid(selected)
    ensures ExportRows(cs, [], selected, now) == []
  {
    ExportEntriesCount(cs, [], selected);
    assert TruePositions(ExportFlags(cs, [], selected)) == {};
  }

  /** After the board has been shown, every company on it has a row. */
  lemma ExportAfterBoard(st: State, selected: YearMonth, now: Time, ids: nat -> Id, k: nat)
    requires Valid(selected) && k < |st.companies| && Visible(st.companies[k], selected)
    ensures var recs := RenderBoard(st, selected, now, ids).records;
      exists row :: row in ExportRows(st.companies, recs, selected, now) && row.code == st.companies[k].code
  {
    var recs := RenderBoard(st, selected, now, ids).records;
    var es := ExportEntries(st.companies, recs, selected);
    assert Exported(st.companies[k], recs, selected);
    var e := Entry(st.companies[k], recs[FindRecord(recs, st.companies[k].id, selected).value]);
    var i :| 0 <= i < |es| && es[i] == e;
    assert ExportRows(st.companies, recs, selected, now)[i].code == st.companies[k].code;
  }

  /** Completing a record straight from "Pendente" and then dragging it back
      to "Em Andamento" later sets a start after the completion: the export
      then shows a negative number of days. */
  lemma ReopenedShowsNegativeDays(r: Record, t1: Time, t2: Time, now: Time)
    requires r.status == Pendente && Consistent(r) && t1 < t2
    ensures var reopened := Transition(Transition(r, Concluido, t1), EmAndamento, t2);
      ExportDays(reopened, now) < 0 && DayCellOf(ExportDays(reopened, now)).Days?
  {
    var reopened := Transition(Transition(r, Concluido, t1), EmAndamento, t2);
    CompletedBackToInProgress(Transition(r, Concluido, t1), t2);
    assert reopened.startedAt == Some(t2) && reopened.completedAt == Some(t1);
  }

  /** A record that went through "Em Andamento" before completion keeps its
      first start when reopened, so its day count is not negative. */
  lemma ReopenedAfterStartKeepsDays(r: Record, t0: Time, t1: Time, t2: Time, now: Time)
    requires r.status == Pendente && Consistent(r) && t0 <= t1 <= t2
    ensures var reopened := Transition(Transition(Transition(r, EmAndamento, t0), Concluido, t1), EmAndamento, t2);
      && reopened.startedAt == Some(t0) && reopened.completedAt == Some(t1)
      && ExportDays(reopened, now) >= 0
  {
    var reopened := Transition(Transition(Transition(r, EmAndamento, t0), Concluido, t1), EmAndamento, t2);
    assert reopened.startedAt == Some(t0) && reopened.completedAt == Some(t1);
    ElapsedDaysMonotone(t0, t0, t1);
    assert ElapsedDays(t0, t0) == 0;
  }
}
